=== FILE: README.md ===
# goduplicatephoto: the duplicate-grouping engine in Dafny

goduplicatephoto walks a directory tree and treats every non-directory entry as a file. A file whose extension is one of seven image extensions is an image. Each image whose signature can be computed is filed under that signature; an image whose signature fails joins no group. From every group of more than one path the engine ranks the copies whose dimensions can be read by pixel area, keeps the largest, and moves the other ranked copies into an output directory; copies whose dimensions cannot be read are dropped from the ranking and never moved. A destination that is taken gets a numbered name `stem_i.ext` with the smallest free i from 1 to 999; when all 999 are taken the taken path is used as it is, and the rename replaces the file there.

This project models that engine and proves properties of the model.

- `Scanning` (scanning.dfy) covers the walk of `DuplicateDetector.Run`:
  - the counters `TotalFiles` and `ImagesFound`;
  - the map `sigs` from signature to paths;
  - where the walk stops.
- `Image` (image.dfy) covers:
  - `IsImageFile`;
  - `SortByResolution`, a filter followed by an in-place sort on an array;
  - `ConvertToGrayscale`, nested loops over a fresh `array2` buffer.
- `Relocation` (relocation.dfy) covers:
  - `handleDuplicateFilename`;
  - the effect of a run of moves that stops at its first failure.
- `Duplicates` (duplicates.dfy) states what `processDuplicates` achieves, whatever order Go's map iteration uses:
  - the number of moves;
  - that keepers stay put;
  - that no path is moved twice.
- `Detector` (detector.dfy) is the `DuplicateDetector` class:
  - `Run`, the walk callback, `processDuplicates` and `countDuplicates` as methods on the `sigs` field;
  - a `FileSystem` object, whose set of existing paths the methods change.
- `Os` (os.dfy) is that filesystem. `Paths` (paths.dfy) holds the path helpers. `Collections` (collections.dfy) holds generic sequence and set vocabulary.

Some behaviour becomes explicit input:

- The walk is the sequence of entries (or errors) WalkDir hands to the callback.
- The signature generator is a partial map from path to signature. A path outside its domain is an image whose signature fails.
- Image dimensions are a partial map from path to width and height.
- OS refusals are fixed sets of paths on which `MkdirAll` or `Rename` fails.
- The order of Go's map iteration is an arbitrary choice in each loop. A ghost `order` records it.

## Model

| member | source | states |
|---|---|---|
| Detector.Counted | scr/pkg/detector/detector.go:54-65 | TotalFiles counts the non-directory entries and ImagesFound those among them that are images, so ImagesFound <= TotalFiles |
| Detector.DuplicateDetector.constructor | scr/pkg/detector/detector.go:37-42 | a new detector has its config and an empty signature map |
| Detector.DuplicateDetector.Walk | scr/pkg/detector/detector.go:49-86 | the walk stops at the first error entry and returns it; the groups then hold exactly what was added before it; with no error the counters equal Counted(walk) and the groups are the image paths grouped in walk order |
| Detector.DuplicateDetector.Callback | scr/pkg/detector/detector.go:50-85 | an error is passed back with nothing changed; otherwise counters and groups advance exactly as the walk seen so far plus this entry prescribes |
| Detector.DuplicateDetector.ProcessDuplicates | scr/pkg/detector/detector.go:105-148 | whatever the map order, each group is handled once (skipped when of size <= 1, ranked otherwise); the filesystem and `moved` are the result of moving the non-keepers of the handled groups in turn, stopping at the first failure; without failure every group was handled |
| Detector.DuplicateDetector.MoveNonKeepers | scr/pkg/detector/detector.go:124-144 | ranked paths 1..n-1 are moved in order; each needs a successful mkdir and rename; the first failure stops the loop, and `moved` counts the successes before it |
| Detector.DuplicateDetector.CountDuplicates | scr/pkg/detector/detector.go:151-159 | the count is the number of signatures whose group has more than one path; the map is not changed (the method has no modifies clause) |
| Detector.DuplicateDetector.Run | scr/pkg/detector/detector.go:45-102 | a walk error returns an error, no stats, and leaves the filesystem untouched; a move error returns an error; otherwise TotalFiles and ImagesFound count the walk, FilesMoved equals ExpectedMoves, and DuplicatesFound counts the groups with more than one path |
| Scanning.FilePaths | scr/pkg/detector/detector.go:54-58 | defines the files of a walk: the paths of its non-directory, non-error entries, in walk order |
| Scanning.ImagePaths | scr/pkg/detector/detector.go:58-65 | defines the images of a walk: the files that IsImageFile accepts, in walk order |
| Scanning.SignedPaths | scr/pkg/detector/detector.go:67-74 | defines the images whose signature succeeds, in walk order |
| Scanning.Grouped | scr/pkg/detector/detector.go:67-79 | defines the map after the walk: each signed image appended to the group of its signature, in walk order; an unsigned image is skipped |
| Scanning.FirstBroken | scr/pkg/detector/detector.go:50-52 | the index found holds an error entry and every earlier entry is a visit; no index means no error entry |
| Scanning.Members | scr/pkg/detector/detector.go:78 | defines reading `dd.sigs[sig]`: the group of the signature, or empty (Go's nil slice) when the key is missing |
| Scanning.AddPath | scr/pkg/detector/detector.go:78 | appending adds the path at the end of its signature's group (creating the group) and changes no other group |
| Scanning.GroupedSnoc | scr/pkg/detector/detector.go:68-79 | one more image is appended to its signature's group when signed, and skipped otherwise |
| Scanning.FilePathsSnoc | scr/pkg/detector/detector.go:54-58 | a directory or error entry adds no file; any other entry adds its path |
| Scanning.WalkSnoc | scr/pkg/detector/detector.go:54-65 | one more entry adds to the files and the images exactly as the callback's branches decide |
| Scanning.GroupedMembers | scr/pkg/detector/detector.go:67-79 | every group after the walk is its previous contents followed by exactly the walked images with that signature, in walk order |
| Scanning.UnsignedNotGrouped | scr/pkg/detector/detector.go:68-74 | an image whose signature fails is in no group after the walk |
| Scanning.GroupedKeys | scr/pkg/detector/detector.go:78 | the signatures after the walk are the previous ones plus the signatures of the signed images |
| Scanning.TotalMembersAddPath | scr/pkg/detector/detector.go:78 | one append makes the groups hold exactly one more path |
| Scanning.TotalMembersGrouped | scr/pkg/detector/detector.go:67-79 | the walk adds exactly one group entry per signed image |
| Scanning.ScanCounts | scr/pkg/detector/detector.go:58-79 | after a first walk the sum of group lengths equals the number of signed images, which is <= ImagesFound <= TotalFiles |
| Scanning.GroupedWellFormed | scr/pkg/detector/detector.go:78 | appending distinct, not yet grouped paths keeps every group duplicate-free and the groups disjoint |
| Scanning.FirstScanWellFormed | scr/pkg/detector/detector.go:49-86 | a walk that visits each file once yields duplicate-free, pairwise disjoint groups |
| Duplicates.DupKeys | scr/pkg/detector/detector.go:151-159 | defines the duplicate signatures: the keys whose group has more than one path |
| Duplicates.DupKeysBound | scr/pkg/detector/detector.go:151-159 | there are never more duplicate groups than keys |
| Duplicates.DupKeysStep | scr/pkg/detector/detector.go:153-157 | visiting one more key raises the count by one exactly when its group has more than one path |
| Duplicates.DupKeysSeen | scr/pkg/detector/detector.go:153-158 | once every key has been visited, every duplicate group has been counted |
| Duplicates.GroupMoves | scr/pkg/detector/detector.go:109-124 | defines how many paths one group gives up: none for a group of at most one path, otherwise the readable paths minus the keeper |
| Duplicates.ExpectedMoves | scr/pkg/detector/detector.go:108-147 | defines the total expected moves: GroupMoves summed over the duplicate signatures |
| Duplicates.RankedFrom | scr/pkg/detector/detector.go:109-118 | defines how one group of the `range dd.sigs` loop is handled: a group of at most one path is skipped and recorded as itself (its Tail is empty); any other is ranked by SortByResolution |
| Duplicates.Processed | scr/pkg/detector/detector.go:108-118 | defines a processing of the map in some iteration order: distinct signatures, each group handled as RankedFrom says |
| Duplicates.RankedMoves | scr/pkg/detector/detector.go:109-124 | a group of size <= 1 gives up no path; a ranked group gives up all readable paths except the keeper; the ranking draws only on the group |
| Duplicates.ProcessedSnoc | scr/pkg/detector/detector.go:108-118 | handling a not-yet-handled group extends a valid processing |
| Duplicates.SumOfEnumeration | scr/pkg/detector/detector.go:108 | summing over any duplicate-free listing of the keys gives the same total, so the map order does not matter |
| Duplicates.EvictionsLength | scr/pkg/detector/detector.go:108-145 | the paths given up number the sum of GroupMoves over the handled groups |
| Duplicates.CompleteProcessingMoves | scr/pkg/detector/detector.go:108-147 | handling every group, in any order, gives up exactly ExpectedMoves paths, the sum of GroupMoves: readable-1 per duplicate group, 0 when none of its paths is readable |
| Duplicates.EvictionsMembers | scr/pkg/detector/detector.go:124 | every path given up comes after the keeper of some handled group |
| Duplicates.RankedWithin | scr/pkg/detector/detector.go:118 | a ranked group holds only paths of its group, each once |
| Duplicates.TailOfDistinct | scr/pkg/detector/detector.go:124 | the paths after the keeper contain neither the keeper nor a repetition |
| Duplicates.HandledGroupsDisjoint | scr/pkg/detector/detector.go:108-118 | handled groups of different signatures share no path |
| Duplicates.EvictedEarlier | scr/pkg/detector/detector.go:108-144 | a path given up for an earlier group does not appear in a later group |
| Duplicates.EvictionsDistinct | scr/pkg/detector/detector.go:108-144 | no path is given up twice |
| Duplicates.KeeperNeverEvicted | scr/pkg/detector/detector.go:124 | the keeper of a handled group is never among the paths given up |
| Duplicates.KeepersStay | scr/pkg/detector/detector.go:124-137 | every keeper that existed before the moves still exists after them, even when a move fails |
| Relocation.ResolveFromSpec | scr/pkg/detector/detector.go:170-175 | probing from i returns the first free probe at or after i, or the path itself when none is free |
| Relocation.ResolveSpec | scr/pkg/detector/detector.go:162-178 | a free path comes back unchanged; a taken one becomes the smallest free probe `dir/stem_i.ext` with 1 <= i <= 999; with all 999 taken, the taken path comes back |
| Relocation.ResolveIsFreeUnlessExhausted | scr/pkg/detector/detector.go:162-178 | the chosen destination is free exactly when not all 999 probes are taken |
| Relocation.ProbeNameHasNoSeparator | scr/pkg/detector/detector.go:168-171 | a probe's final element contains no separator |
| Relocation.ProbeNameExt | scr/pkg/detector/detector.go:167-171 | a probe's final element keeps the extension of the original final element |
| Relocation.ProbeShape | scr/pkg/detector/detector.go:165-171 | a probe stays in the same directory, keeps the extension, and its name is stem, `_`, the number, then the extension |
| Relocation.HandleDuplicateFilename | scr/pkg/detector/detector.go:162-178 | the probe loop returns Resolve's destination: the path itself when free, else the smallest free probe, else the original path |
| Relocation.Extend | scr/pkg/detector/detector.go:124-144 | after a failure nothing more happens; otherwise `moved` grows by one exactly when the next move succeeds |
| Relocation.MoveAll | scr/pkg/detector/detector.go:124-144 | moves are counted only while they succeed; no error is reported exactly when every source was moved |
| Relocation.MoveAllSnoc | scr/pkg/detector/detector.go:124-143 | a run over one more source is the shorter run extended by that source |
| Relocation.MoveAllStops | scr/pkg/detector/detector.go:128-137 | once a move has failed, later sources are never attempted |
| Relocation.ExtendChain | scr/pkg/detector/detector.go:108-144 | extending a run of two chained batches extends only the second batch |
| Relocation.MoveAllAppend | scr/pkg/detector/detector.go:108-145 | moving two batches one after the other is moving their concatenation, and the counts add up |
| Relocation.MoveOneKeepsOthers | scr/pkg/detector/detector.go:125-137 | one move, succeeding or failing, leaves every other existing path in place |
| Relocation.MoveAllKeepsOthers | scr/pkg/detector/detector.go:124-144 | a path that exists and is not a source still exists after the moves |
| Relocation.ResolveKeepsDirAndExt | scr/pkg/detector/detector.go:162-178 | whatever handleDuplicateFilename returns lies in the directory of its argument and keeps its extension |
| Relocation.MovedTo | scr/pkg/detector/detector.go:125-135 | a successful move's destination is handleDuplicateFilename applied to `OutputDir/Base(src)` once the output directory exists |
| Relocation.PlacedName | scr/pkg/detector/detector.go:125 | `OutputDir/Base(src)` has base name `Base(src)` and directory `OutputDir` |
| Relocation.DestinationInOutputDir | scr/pkg/detector/detector.go:125-135 | a moved file lands in the output directory |
| Relocation.DestinationKeepsExtension | scr/pkg/detector/detector.go:125-135 | a moved file keeps the source's extension |
| Relocation.DestinationKeepsBaseWhenFree | scr/pkg/detector/detector.go:125-135 | when `OutputDir/Base(src)` is free, that is exactly where the file goes, under its own base name |
| Relocation.DestinationFreshUnlessExhausted | scr/pkg/detector/detector.go:125-135 | a move lands on a path that did not exist exactly unless `OutputDir/Base(src)` and all its 999 probes are taken; then it lands on that taken path |
| Relocation.Probe | scr/pkg/detector/detector.go:165-171 | defines the i-th probe: the directory of the path joined with the probe name |
| Relocation.ProbeName | scr/pkg/detector/detector.go:166-171 | defines the probe name `stem_i.ext`: the base name without its extension, '_', i in decimal, the extension |
| Relocation.ResolveFrom | scr/pkg/detector/detector.go:170-177 | defines the probe loop from i on: the first probe below 1000 that does not exist, else the original path |
| Relocation.Resolve | scr/pkg/detector/detector.go:162-178 | defines handleDuplicateFilename on a set of existing paths: a free path as it is, a taken one through the probe loop from 1 |
| Relocation.MoveOne | scr/pkg/detector/detector.go:125-137 | defines one move: a refused mkdir fails with the entries unchanged; otherwise the output directory exists, a refused rename fails, and a successful rename goes to Resolve's destination |
| Os.AfterRename | scr/pkg/detector/detector.go:135 | defines the entries after a rename: the source removed, the destination added |
| Relocation.Tail | scr/pkg/detector/detector.go:124 | defines the non-keepers: the ranked paths from index 1 on, nothing for an empty ranking |
| Relocation.Evictions | scr/pkg/detector/detector.go:108-124 | defines the rename sources of processDuplicates: for each handled group in turn, its ranked paths after the keeper |
| Relocation.EvictionsSnoc | scr/pkg/detector/detector.go:108-124 | handling one more group gives up its paths after the keeper, and none for a group of at most one path |
| Os.MkdirSucceeds | scr/pkg/detector/detector.go:128 | defines when `os.MkdirAll` succeeds: the directory exists already or the OS does not refuse to create it |
| Os.RenameSucceeds | scr/pkg/detector/detector.go:135 | defines when `os.Rename` succeeds: the source exists and the OS does not refuse to move it |
| Os.AfterRenameSpec | scr/pkg/detector/detector.go:135 | after a rename the destination exists, the source is gone (unless it was also the destination), and every other path is unchanged |
| Os.FileSystem.Exists | scr/pkg/detector/detector.go:163 | the stat succeeds exactly when the path exists |
| Os.FileSystem.MkdirAll | scr/pkg/detector/detector.go:128 | on success the output directory exists; on failure nothing changes |
| Os.FileSystem.Rename | scr/pkg/detector/detector.go:135 | on success the source is replaced by the destination; on failure nothing changes |
| Image.IsImageFile | scr/pkg/image/image.go:18-32 | defines classification: a path is an image when its extension, as `filepath.Ext` finds it, is one of the seven entries of the extension table (a set), compared case-sensitively |
| Image.SupportedExtensionsAreDotted | scr/pkg/image/image.go:18-26 | every listed extension is a dot followed by neither dots nor separators |
| Image.IsImageFileIffSuffix | scr/pkg/image/image.go:29-32 | a path is an image file if and only if it ends with one of the seven listed extensions |
| Image.UpperCaseExtensionIsNotImage | scr/pkg/image/image.go:29-31 | the comparison is case-sensitive: `.JPG` is not an image |
| Image.LowerCaseExtensionIsImage | scr/pkg/image/image.go:29-31 | the same name with `.jpg` is an image |
| Image.ExtensionlessIsNotImage | scr/pkg/image/image.go:29-31 | any path whose extension is empty is not an image |
| Image.NameWithoutExtensionIsNotImage | scr/pkg/image/image.go:29-31 | any path whose final element contains no '.' is not an image, whatever its directories are called |
| Image.NameWithoutExtensionExample | scr/pkg/image/image.go:29-31 | for instance `album.jpg/README` is not an image |
| Image.Area | scr/pkg/image/image.go:103 | defines the ranking key of a readable image: width times height |
| Image.Descending | scr/pkg/image/image.go:112-121 | defines the order `sort.Slice` is asked for: readable paths in non-increasing area |
| Image.IsRanking | scr/pkg/image/image.go:97-121 | defines the results SortByResolution may give: a non-increasing permutation of the readable inputs |
| Image.Readable | scr/pkg/image/image.go:97-110 | the readable inputs keep exactly the paths with known dimensions, with their multiplicity |
| Image.ReadableSnoc | scr/pkg/image/image.go:97-110 | one more input is kept exactly when its dimensions can be read |
| Image.SortByResolution | scr/pkg/image/image.go:87-124 | the result is a permutation of the readable inputs, ordered by non-increasing area; there is no error result |
| Image.CollectReadable | scr/pkg/image/image.go:95-110 | the first loop keeps, in order, the paths whose dimensions can be read |
| Image.SortByArea | scr/pkg/image/image.go:113-115 | the sort permutes the array into non-increasing area |
| Image.InsertLast | scr/pkg/image/image.go:113-115 | one insertion step extends the sorted prefix by one element and keeps the multiset |
| Image.SwapStep | scr/pkg/image/image.go:113-115 | exchanging a smaller element with its right neighbour moves the one out-of-order position one place left |
| Image.SwapDown | scr/pkg/image/image.go:113-115 | an exchange of neighbours keeps the multiset |
| Image.RankingLength | scr/pkg/image/image.go:97-121 | a ranking has as many entries as there are readable inputs, so no more than the inputs, and only input paths |
| Image.KeeperHasLargestArea | scr/pkg/image/image.go:112-120 | the first ranked path is an input with the largest area of all readable inputs |
| Image.KeeperAreaIsDetermined | scr/pkg/image/image.go:113-115 | whatever order equal areas take, all rankings have the same length and keepers of the same area |
| Image.GrayImage.constructor | scr/pkg/image/image.go:129 | the new buffer covers the bounds and is zero everywhere |
| Image.GrayImage.Set | scr/pkg/image/image.go:135 | a write inside the bounds changes exactly that pixel; a write outside is ignored |
| Image.ConvertToGrayscale | scr/pkg/image/image.go:127-140 | the output has the input's bounds; each pixel inside is GrayLevel of the input colour, i.e. ((r+g+b)/3) mod 256; pixels outside read as zero |
| Image.GrayLevel | scr/pkg/image/image.go:135 | defines the level as written: the low byte of the mean of the three 16-bit channels |
| Image.IntendedGrayLevel | scr/pkg/image/image.go:135 | defines the corrected level: the high byte of that mean |
| Image.GrayLevelNotMonotone | scr/pkg/image/image.go:135 | 8-bit reds 1, 2 and 3 convert to levels 85, 171 and 1 |
| Image.IntendedGrayLevelMonotone | scr/pkg/image/image.go:135 | with the high byte kept, a brighter colour never gets a darker level |
| Image.IntendedGrayLevelTracksMean | scr/pkg/image/image.go:135 | with the high byte kept, an 8-bit colour's level is its 8-bit channel mean or one above |
| Image.IntendedGrayLevelOfGray | scr/pkg/image/image.go:135 | with the high byte kept, a gray colour keeps its 8-bit level |
| Paths.LastSep | scr/pkg/detector/detector.go:165-166 | defines the index of the last '/', or -1 when there is none |
| Paths.Base | scr/pkg/detector/detector.go:125 | defines `filepath.Base` on the model's paths: the text after the last '/' |
| Paths.Dir | scr/pkg/detector/detector.go:165 | defines `filepath.Dir` on the model's paths: the text before the last '/', or "." when there is none |
| Paths.Join | scr/pkg/detector/detector.go:125 | defines `filepath.Join` on the model's paths: the directory, '/', the name |
| Paths.Ext | scr/pkg/image/image.go:30 | defines `filepath.Ext`: the suffix from the last '.' of the final element, or empty when that element has none |
| Paths.Stem | scr/pkg/detector/detector.go:168 | defines `base[:len(base)-len(ext)]`: the base name without its extension |
| Paths.Decimal | scr/pkg/detector/detector.go:171 | defines `%d` of a non-negative number: its decimal digits, most significant first |
| Paths.LastSepSpec | scr/pkg/detector/detector.go:165-166 | the last separator is found: a '/' at the index and none after it |
| Paths.ExtIsSuffix | scr/pkg/detector/detector.go:167-168 | the extension is a suffix of the path, so cutting it off leaves the name without extension |
| Paths.ExtSpec | scr/pkg/image/image.go:30 | a non-empty extension is a '.' followed by neither '.' nor '/' |
| Paths.NoExtNoDot | scr/pkg/image/image.go:30 | a separator-free name without extension has no '.' |
| Paths.NoDotNoExt | scr/pkg/image/image.go:30 | a path without '.' has no extension |
| Paths.ExtOfDottedSuffix | scr/pkg/image/image.go:30 | a dotted suffix without further '.' or '/' is the extension of any path it ends |
| Paths.ExtSnoc | scr/pkg/image/image.go:30 | how the extension changes when one character is appended |
| Paths.ExtOfFinalElement | scr/pkg/image/image.go:30 | only the final path element decides the extension |
| Paths.ExtOfBase | scr/pkg/detector/detector.go:166-167 | the extension of a path is the extension of its base name |
| Paths.DecimalDigits | scr/pkg/detector/detector.go:171 | `%d` of a non-negative number writes digits only |
| Paths.JoinSplits | scr/pkg/detector/detector.go:125 | joining a directory and a separator-free name splits back into the two |
| Paths.NoSepPrefix | scr/pkg/detector/detector.go:168 | a prefix of a separator-free name is separator-free |
| Paths.NoSepSuffix | scr/pkg/detector/detector.go:167 | a suffix of a separator-free name is separator-free |
| Paths.NoSepConcat | scr/pkg/detector/detector.go:171 | concatenating separator-free strings gives a separator-free string |
| Paths.StemExtNoSep | scr/pkg/detector/detector.go:166-168 | the name without extension and the extension of a base name hold no separator |
| Paths.DecimalNoSep | scr/pkg/detector/detector.go:171 | `%d` writes no separator |
| Paths.BaseSplit | scr/pkg/detector/detector.go:166 | the base name holds no separator; when the path has a '/' it is its directory, '/', and the base name, otherwise the path is its base name |

## Left out

- `scr/cmd/main.go` is not part of this model. Neither are the flag parsing, the input-directory check, or the summary printing.
- `scr/pkg/signature/signature.go` is not part of this model. GenerateSignature (decode, Lanczos thumbnail, PNG encoding, MD5) is the partial map `Signer`, so the thumbnail size has no effect in the model.
- `GetImageDimensions`, `LoadImage`, `CreateThumbnail` and `ImageToBytes` are codec and file I/O. Dimensions are the partial map `dims`, and a decoded picture is a colour function over its bounds.
- Image.SortByResolution: the key is the integer area `width*height`, not the float megapixels. Dividing by 1,000,000 in float64 preserves the order for realistic sizes. Overflow of `width*height` in Go's `int` is not modelled.
- Image.SortByResolution: `sort.Slice` is not stable, and the model's insertion sort is one admissible order. The contract admits any order among equal areas. The final loop that copies paths out of the sorted records is `a[..]`.
- Image.SortByResolution: its `error` result is always nil in the source, so the model has no error result.
- Paths: `filepath.Clean` is not applied. Join is `dir + "/" + name`, Base is the text after the last '/', and Dir the text before it ("." when there is none). Trailing slashes, `..` elements and a root directory are outside the model. Every path the engine passes to these helpers comes from the walk, or is `OutputDir` joined with a base name.
- Os: `os.Stat` errors other than "does not exist" count as "does not exist", as the probe loop treats them. `MkdirAll` creating missing parents is reduced to the output directory itself. Errors are fixed refusal sets, not causes.
- Detector.DuplicateDetector.Walk: the `sync.Mutex` around the map update is left out because the walk is sequential. Verbose logging is left out too, including `sig[:8]`, which would panic on a signature shorter than 8 characters.
- Detector.DuplicateDetector.Run: error messages are reduced to the `RunError` constructors `WalkFailed` and `MoveFailed`.
- Detector.DuplicateDetector.ProcessDuplicates: Go's random map iteration order is an arbitrary choice at each step. The contracts hold for every order.
- Detector.DuplicateDetector.ProcessDuplicates: dimensions are read once, before any move, as the map `dims`; Go reads them from the live file each time a group is ranked. A file replaced by an exhausted-probe rename keeps its old dimensions in the model, so if it belongs to a group handled later, Go may rank it, pick the keeper and move files differently from `Evictions(ranked)` and `ExpectedMoves(sigs, dims)`.
- Relocation.HandleDuplicateFilename: when all 999 probes are taken the code returns the existing path without an error (detector.go:170-177), so the following rename replaces that file; `Relocation.ResolveIsFreeUnlessExhausted` states this case.
- Image.ConvertToGrayscale: `image.Gray`'s `Pix`/`Stride` layout is an `array2` indexed from the bounds' minimum. The colour-model conversion in `Gray.Set` is the identity for a `color.Gray` value, so it is omitted. The method requires well-formed bounds (Min <= Max); on bounds with Max < Min, `image.NewGray` panics, and that panic is not modelled.

## Findings

| source | as written | input that shows it | evidently intended | confidence | as-written member | corrected member |
|---|---|---|---|---|---|---|
| scr/pkg/image/image.go:135 | `uint8((r + g + b) / 3)` keeps the low byte of the 16-bit channel mean | 8-bit red 1, 2, 3 (16-bit 257, 514, 771, green and blue 0) give levels 85, 171, 1: brighter input, darker output | the high byte, `(r + g + b) / 3 >> 8`, which is monotone and returns a gray colour's own 8-bit level | high, not executed | Image.GrayLevelNotMonotone | Image.IntendedGrayLevelMonotone |

`Image.ConvertToGrayscale` models the conversion as written, with `GrayLevel`. No other part of the model consumes gray levels. `IntendedGrayLevel` is the corrected definition. Its properties are `IntendedGrayLevelMonotone`, `IntendedGrayLevelTracksMean` and `IntendedGrayLevelOfGray`.

=== FILE: collections.dfy ===
/** Small generic vocabulary shared by the other modules: optional values and
    results, duplicate-free sequences, order-preserving filters and sums over
    finite sets. */
module Collections {

  datatype Option<+T> = None | Some(value: T)

  datatype Result<+T, +E> = Success(value: T) | Failure(error: E)

  /** Every element of `s` occurs in it exactly once. */
  ghost predicate NoDuplicates<T>(s: seq<T>) {
    forall x | x in s :: multiset(s)[x] == 1
  }

  /** The elements of `s` that satisfy `keep`, in their original order. */
  function Filter<T>(s: seq<T>, keep: T -> bool): (r: seq<T>)
    ensures |r| <= |s|
    decreases |s|
  {
    if s == [] then []
    else
      var rest := Filter(s[..|s| - 1], keep);
      if keep(s[|s| - 1]) then rest + [s[|s| - 1]] else rest
  }

  /** Filter keeps every element that satisfies `keep` as often as it occurs, and nothing else. */
  lemma {:induction false} FilterSpec<T>(s: seq<T>, keep: T -> bool)
    ensures multiset(Filter(s, keep)) <= multiset(s)
    ensures forall x | x in s :: multiset(Filter(s, keep))[x] == if keep(x) then multiset(s)[x] else 0
    ensures forall x | x in Filter(s, keep) :: x in s && keep(x)
    decreases |s|
  {
    if s != [] {
      var s', x := s[..|s| - 1], s[|s| - 1];
      assert s == s' + [x];
      FilterSpec(s', keep);
    }
  }

  /** Filtering a prefix and then the next element is filtering the longer prefix. */
  lemma FilterSnoc<T>(s: seq<T>, x: T, keep: T -> bool)
    ensures keep(x) ==> Filter(s + [x], keep) == Filter(s, keep) + [x]
    ensures !keep(x) ==> Filter(s + [x], keep) == Filter(s, keep)
  {
    assert (s + [x])[..|s + [x]| - 1] == s;
  }

  /** Splitting off the last element of the second half of a concatenation. */
  lemma AppendSnoc<T>(a: seq<T>, b: seq<T>)
    requires b != []
    ensures b == b[..|b| - 1] + [b[|b| - 1]]
    ensures a + b == (a + b[..|b| - 1]) + [b[|b| - 1]]
  {
  }

  /** The prefix of length n + 1 is the prefix of length n and the n-th element, and the rest follows it. */
  lemma PrefixSnoc<T>(s: seq<T>, n: nat)
    requires n < |s|
    ensures s[..n + 1] == s[..n] + [s[n]]
    ensures s == s[..n + 1] + s[n + 1..]
  {
  }

  /** A sub-multiset of a duplicate-free sequence is duplicate-free. */
  lemma NoDuplicatesSub<T>(r: seq<T>, s: seq<T>)
    requires multiset(r) <= multiset(s)
    requires NoDuplicates(s)
    ensures NoDuplicates(r)
  {
    forall x | x in r ensures multiset(r)[x] == 1 {
      assert multiset(r)[x] >= 1;
      assert x in multiset(s);
      assert x in s;
    }
  }

  /** Two duplicate-free sequences with nothing in common concatenate to a duplicate-free one. */
  lemma NoDuplicatesAppend<T>(a: seq<T>, b: seq<T>)
    requires NoDuplicates(a) && NoDuplicates(b)
    requires forall x | x in a :: x !in b
    ensures NoDuplicates(a + b)
  {
    assert multiset(a + b) == multiset(a) + multiset(b);
    forall x | x in a + b ensures multiset(a + b)[x] == 1 {
      if x in a {
        assert x !in multiset(b);
      } else {
        assert x !in multiset(a);
      }
    }
  }

  /** The sum of `f` over a finite set of keys. */
  ghost function Sum<K>(keys: set<K>, f: K -> nat): nat
  {
    if keys == {} then 0 else var k :| k in keys; f(k) + Sum(keys - {k}, f)
  }

  /** Any key may be split off a sum, whichever key the definition picks. */
  lemma {:induction false} SumRemove<K>(keys: set<K>, f: K -> nat, k: K)
    requires k in keys
    ensures Sum(keys, f) == f(k) + Sum(keys - {k}, f)
    decreases |keys|
  {
    var j :| j in keys && Sum(keys, f) == f(j) + Sum(keys - {j}, f);
    if j != k {
      SumRemove(keys - {j}, f, k);
      SumRemove(keys - {k}, f, j);
      assert keys - {j} - {k} == keys - {k} - {j};
    }
  }

  /** Sums of two functions that agree on the keys are equal. */
  lemma {:induction false} SumCongruent<K>(keys: set<K>, f: K -> nat, g: K -> nat)
    requires forall k | k in keys :: f(k) == g(k)
    ensures Sum(keys, f) == Sum(keys, g)
    decreases |keys|
  {
    if keys != {} {
      var k :| k in keys;
      SumRemove(keys, f, k);
      SumRemove(keys, g, k);
      SumCongruent(keys - {k}, f, g);
    }
  }
}

=== FILE: detector.dfy ===
/** The duplicate detector: one walk over the input tree that groups images
    by signature, then the relocation of every non-keeper of each duplicate
    group to the output directory, and the statistics of the run. */
module Detector {
  import opened Collections
  import opened Paths
  import opened Os
  import opened Image
  import opened Scanning
  import opened Relocation
  import opened Duplicates

  datatype Config = Config(inputDir: Path, outputDir: Path, thumbnailSize: int, verbose: bool)

  datatype Stats = Stats(totalFiles: nat, imagesFound: nat, duplicatesFound: nat, filesMoved: nat)

  /** The counters the walk callback keeps for a walk without errors. */
  function Counted(walk: seq<WalkEntry>): (stats: Stats)
    ensures stats.imagesFound <= stats.totalFiles
  {
    Stats(|FilePaths(walk)|, |ImagePaths(walk)|, 0, 0)
  }

  /** Why a run returns no statistics. */
  datatype RunError = WalkFailed(path: Path) | MoveFailed(cause: RelocationError)

  class DuplicateDetector {
    const config: Config
    /** Signature -> the image paths with that signature, in walk order. */
    var sigs: Groups

    constructor (config: Config)
      ensures this.config == config && sigs == map[]
    {
      this.config := config;
      sigs := map[];
    }

    /** filepath.WalkDir over the input tree: the callback is applied to each
        entry in turn and the first error it returns ends the walk. The groups
        keep what the callback added before that error. */
    method Walk(walk: seq<WalkEntry>, sign: Signer) returns (stats: Stats, failure: Option<Path>)
      modifies this
      ensures FirstBroken(walk).Some? ==>
        var b := FirstBroken(walk).value;
        && failure == Some(walk[b].path)
        && sigs == Grouped(old(sigs), ImagePaths(walk[..b]), sign)
      ensures FirstBroken(walk).None? ==>
        && failure == None
        && sigs == Grouped(old(sigs), ImagePaths(walk), sign)
        && stats == Counted(walk)
    {
      stats := Stats(0, 0, 0, 0);
      ghost var start := sigs;
      for i := 0 to |walk|
        invariant forall k | 0 <= k < i :: walk[k].Visit?
        invariant stats == Counted(walk[..i])
        invariant sigs == Grouped(start, ImagePaths(walk[..i]), sign)
      {
        ghost var seen := walk[..i];
        PrefixSnoc(walk, i);
        var err;
        stats, err := Callback(walk[i], sign, stats, seen, start);
        if err.Some? {
          FirstBrokenAt(walk, i);
          return stats, err;
        }
      }
      assert walk[..|walk|] == walk;
      NoneBroken(walk);
      failure := None;
    }

    /** The walk callback for one entry: an error is passed back; a directory
        is skipped; a file is counted, and if its extension marks it as an image
        it is counted again and, when its signature is generated, appended to
        the group of that signature. `seen` is the walk so far, `start` the
        groups before the walk. */
    method Callback(entry: WalkEntry, sign: Signer, stats: Stats, ghost seen: seq<WalkEntry>, ghost start: Groups)
      returns (after: Stats, err: Option<Path>)
      requires stats == Counted(seen) && sigs == Grouped(start, ImagePaths(seen), sign)
      modifies this
      ensures entry.Broken? ==> err == Some(entry.path) && after == stats && sigs == old(sigs)
      ensures entry.Visit? ==>
        && err == None
        && after == Counted(seen + [entry])
        && sigs == Grouped(start, ImagePaths(seen + [entry]), sign)
    {
      WalkSnoc(seen, entry);
      after := stats;
      if entry.Broken? {
        return after, Some(entry.path);
      }
      err := None;
      if entry.isDir {
        return;
      }
      after := after.(totalFiles := after.totalFiles + 1);
      var path := entry.path;
      if !IsImageFile(path) {
        return;
      }
      after := after.(imagesFound := after.imagesFound + 1);
      GroupedSnoc(start, ImagePaths(seen), path, sign);
      if path !in sign {
        return;
      }
      var sig := sign[path];
      sigs := sigs[sig := Members(sigs, sig) + [path]];
    }

    /** processDuplicates: visits the groups in an unspecified order; skips
        groups of at most one path; ranks the others by area and moves every
        path after the keeper into the output directory, stopping at the first
        failure. The result is the run MoveAll describes over the handled
        groups; when nothing failed, every group was handled. */
    method ProcessDuplicates(fs: FileSystem, dims: map<Path, Dims>)
      returns (moved: nat, err: Option<RelocationError>, ghost order: seq<Signature>, ghost ranked: seq<seq<Path>>)
      modifies fs
      ensures Processed(sigs, dims, order, ranked)
      ensures MoveAll(Evictions(ranked), old(fs.entries), config.outputDir, fs.refusals) == Outcome(fs.entries, moved, err)
      ensures err.None? ==> forall s | s in sigs :: s in order
    {
      ghost var entries0 := fs.entries;
      moved, err, order, ranked := 0, None, [], [];
      var remaining := sigs.Keys;
      while remaining != {}
        invariant remaining <= sigs.Keys
        invariant forall s | s in order :: s !in remaining
        invariant forall s | s in sigs && s !in remaining :: s in order
        invariant Processed(sigs, dims, order, ranked)
        invariant MoveAll(Evictions(ranked), entries0, config.outputDir, fs.refusals) == Outcome(fs.entries, moved, None)
        decreases |remaining|
      {
        var sig :| sig in remaining;
        remaining := remaining - {sig};
        var files := sigs[sig];
        ghost var before := Evictions(ranked);
        if |files| <= 1 {
          ProcessedSnoc(sigs, dims, order, ranked, sig, files);
          EvictionsSnoc(ranked, files);
          order, ranked := order + [sig], ranked + [files];
          continue;
        }
        var sorted := SortByResolution(files, dims);
        ProcessedSnoc(sigs, dims, order, ranked, sig, sorted);
        EvictionsSnoc(ranked, sorted);
        order, ranked := order + [sig], ranked + [sorted];
        var movedHere, failed := MoveNonKeepers(fs, sorted);
        MoveAllAppend(before, Tail(sorted), entries0, config.outputDir, fs.refusals);
        moved := moved + movedHere;
        if failed.Some? {
          err := failed;
          return;
        }
      }
    }

    /** The inner loop of processDuplicates: moves every ranked path after the
        keeper to a free name in the output directory, creating the directory
        first each time, and stops at the first failure. */
    method MoveNonKeepers(fs: FileSystem, sorted: seq<Path>) returns (moved: nat, err: Option<RelocationError>)
      modifies fs
      ensures MoveAll(Tail(sorted), old(fs.entries), config.outputDir, fs.refusals) == Outcome(fs.entries, moved, err)
    {
      ghost var entries0 := fs.entries;
      ghost var rest := Tail(sorted);
      moved, err := 0, None;
      var i := 1;
      while i < |sorted|
        invariant 1 <= i && i - 1 <= |rest|
        invariant MoveAll(rest[..i - 1], entries0, config.outputDir, fs.refusals) == Outcome(fs.entries, moved, None)
      {
        var src := sorted[i];
        assert src == rest[i - 1];
        ghost var done := rest[..i - 1];
        PrefixSnoc(rest, i - 1);
        MoveAllSnoc(done, src, entries0, config.outputDir, fs.refusals);
        var destPath := Join(config.outputDir, Base(src));
        var ok := fs.MkdirAll(config.outputDir);
        if !ok {
          err := Some(MkdirFailed(config.outputDir));
          MoveAllStops(rest[..i], rest[i..], entries0, config.outputDir, fs.refusals);
          return;
        }
        destPath := HandleDuplicateFilename(fs, destPath);
        ok := fs.Rename(src, destPath);
        if !ok {
          err := Some(RenameFailed(src));
          MoveAllStops(rest[..i], rest[i..], entries0, config.outputDir, fs.refusals);
          return;
        }
        moved := moved + 1;
        i := i + 1;
      }
      assert rest[..i - 1] == rest;
    }

    /** countDuplicates: the number of signatures with more than one path; the groups are not changed. */
    method CountDuplicates() returns (count: nat)
      ensures count == |DupKeys(sigs)|
    {
      count := 0;
      var remaining := sigs.Keys;
      ghost var seen: set<Signature> := {};
      while remaining != {}
        invariant remaining <= sigs.Keys && seen == sigs.Keys - remaining
        invariant count == |DupKeys(sigs) * seen|
        decreases |remaining|
      {
        var sig :| sig in remaining;
        remaining := remaining - {sig};
        DupKeysStep(sigs, seen, sig);
        if |sigs[sig]| > 1 {
          count := count + 1;
        }
        seen := seen + {sig};
      }
      DupKeysSeen(sigs, seen);
    }

    /** Run: the walk, then processDuplicates, then countDuplicates. A walk
        error or a failed move returns no statistics; otherwise TotalFiles and
        ImagesFound count the walk, FilesMoved is ExpectedMoves of the groups
        and DuplicatesFound the number of groups with more than one path. */
    method Run(walk: seq<WalkEntry>, sign: Signer, fs: FileSystem, dims: map<Path, Dims>)
      returns (result: Result<Stats, RunError>, ghost order: seq<Signature>, ghost ranked: seq<seq<Path>>)
      modifies this, fs
      ensures FirstBroken(walk).Some? ==>
        var b := FirstBroken(walk).value;
        && result == Failure(WalkFailed(walk[b].path))
        && sigs == Grouped(old(sigs), ImagePaths(walk[..b]), sign)
        && fs.entries == old(fs.entries)
      ensures FirstBroken(walk).None? ==>
        && sigs == Grouped(old(sigs), ImagePaths(walk), sign)
        && Processed(sigs, dims, order, ranked)
        && var outcome := MoveAll(Evictions(ranked), old(fs.entries), config.outputDir, fs.refusals);
        && fs.entries == outcome.entries
        && (outcome.err.Some? ==> result == Failure(MoveFailed(outcome.err.value)))
        && (outcome.err.None? ==>
              result == Success(Counted(walk).(duplicatesFound := |DupKeys(sigs)|, filesMoved := ExpectedMoves(sigs, dims))))
    {
      var stats, failure := Walk(walk, sign);
      if failure.Some? {
        return Failure(WalkFailed(failure.value)), [], [];
      }
      var moved, err;
      moved, err, order, ranked := ProcessDuplicates(fs, dims);
      if err.Some? {
        return Failure(MoveFailed(err.value)), order, ranked;
      }
      CompleteProcessingMoves(sigs, dims, order, ranked);
      var duplicates := CountDuplicates();
      result := Success(stats.(filesMoved := moved, duplicatesFound := duplicates));
    }
  }
}

=== FILE: duplicates.dfy ===
/** What processing the duplicate groups is meant to achieve, independent of
    the order in which Go's map iteration hands out the groups: which groups
    count as duplicates, how each group is ranked, how many files are moved,
    and that no keeper is ever moved. */
module Duplicates {
  import opened Collections
  import opened Paths
  import opened Image
  import opened Scanning
  import opened Os
  import opened Relocation

  /** The signatures whose group holds more than one path. */
  function DupKeys(groups: Groups): set<Signature> {
    set s | s in groups && |groups[s]| > 1
  }

  /** There are never more duplicate groups than groups. */
  lemma DupKeysBound(groups: Groups)
    ensures |DupKeys(groups)| <= |groups|
  {
    SubsetSize(DupKeys(groups), groups.Keys);
  }

  /** Counting one more signature adds one exactly when its group is a duplicate group. */
  lemma DupKeysStep(groups: Groups, seen: set<Signature>, sig: Signature)
    requires sig in groups && sig !in seen
    ensures |DupKeys(groups) * (seen + {sig})| == |DupKeys(groups) * seen| + if |groups[sig]| > 1 then 1 else 0
  {
    if |groups[sig]| > 1 {
      assert DupKeys(groups) * (seen + {sig}) == (DupKeys(groups) * seen) + {sig};
    } else {
      assert DupKeys(groups) * (seen + {sig}) == DupKeys(groups) * seen;
    }
  }

  /** Once every signature has been seen, all duplicate groups have been counted. */
  lemma DupKeysSeen(groups: Groups, seen: set<Signature>)
    requires groups.Keys <= seen
    ensures DupKeys(groups) * seen == DupKeys(groups)
  {
  }

  lemma {:induction false} SubsetSize<T>(a: set<T>, b: set<T>)
    requires a <= b
    ensures |a| <= |b|
    decreases |b|
  {
    if a != {} {
      var x :| x in a;
      SubsetSize(a - {x}, b - {x});
    }
  }

  /** How a group is handled: a group of at most one path is skipped and
      stands for itself; a larger group is ranked by area. */
  ghost predicate RankedFrom(group: seq<Path>, dims: map<Path, Dims>, r: seq<Path>) {
    if |group| <= 1 then r == group else IsRanking(group, dims, r)
  }

  /** The number of files a group gives up: all readable paths but the keeper,
      and none for a group of at most one path. */
  function GroupMoves(group: seq<Path>, dims: map<Path, Dims>): nat {
    if |group| <= 1 || |Readable(group, dims)| == 0 then 0 else |Readable(group, dims)| - 1
  }

  /** A handled group gives up exactly the paths after its keeper, which is
      GroupMoves of them; a group of at most one path gives up none. */
  lemma RankedMoves(group: seq<Path>, dims: map<Path, Dims>, r: seq<Path>)
    requires RankedFrom(group, dims, r)
    ensures |Tail(r)| == GroupMoves(group, dims)
    ensures |group| <= 1 ==> Tail(r) == []
    ensures multiset(r) <= multiset(group)
  {
    if |group| > 1 {
      RankingLength(group, dims, r);
    }
  }

  /** GroupMoves per signature. */
  function MovesOf(groups: Groups, dims: map<Path, Dims>): Signature -> nat {
    s => GroupMoves(Members(groups, s), dims)
  }

  /** The number of files a complete processing moves: over all groups, the
      readable paths but the keeper. */
  ghost function ExpectedMoves(groups: Groups, dims: map<Path, Dims>): nat {
    Sum(groups.Keys, MovesOf(groups, dims))
  }

  /** `order` lists distinct signatures of `groups` and `ranked[j]` is how the
      group of `order[j]` was handled. */
  ghost predicate Processed(groups: Groups, dims: map<Path, Dims>, order: seq<Signature>, ranked: seq<seq<Path>>) {
    && |order| == |ranked|
    && (forall j | 0 <= j < |order| :: order[j] in groups && RankedFrom(groups[order[j]], dims, ranked[j]))
    && (forall i, j | 0 <= i < j < |order| :: order[i] != order[j])
  }

  /** Handling one more group, not handled before, extends a processing. */
  lemma ProcessedSnoc(groups: Groups, dims: map<Path, Dims>, order: seq<Signature>, ranked: seq<seq<Path>>, sig: Signature, r: seq<Path>)
    requires Processed(groups, dims, order, ranked)
    requires sig in groups && sig !in order
    requires RankedFrom(groups[sig], dims, r)
    ensures Processed(groups, dims, order + [sig], ranked + [r])
  {
  }

  /** The processing of a prefix of the order. */
  lemma ProcessedPrefix(groups: Groups, dims: map<Path, Dims>, order: seq<Signature>, ranked: seq<seq<Path>>, n: nat)
    requires Processed(groups, dims, order, ranked)
    requires n <= |order|
    ensures Processed(groups, dims, order[..n], ranked[..n])
  {
  }

  /** The sum of `f` along a sequence. */
  function SeqSum<K>(order: seq<K>, f: K -> nat): nat
    decreases |order|
  {
    if order == [] then 0 else SeqSum(order[..|order| - 1], f) + f(order[|order| - 1])
  }

  /** Summing along any duplicate-free listing of a set gives the sum over the set. */
  lemma {:induction false} SumOfEnumeration<K>(order: seq<K>, keys: set<K>, f: K -> nat)
    requires forall i, j | 0 <= i < j < |order| :: order[i] != order[j]
    requires forall k :: k in keys <==> k in order
    ensures Sum(keys, f) == SeqSum(order, f)
    decreases |order|
  {
    if order == [] {
      assert keys == {};
    } else {
      var k := order[|order| - 1];
      var order' := order[..|order| - 1];
      forall x ensures x in keys - {k} <==> x in order' {
        if x in order' {
          var i :| 0 <= i < |order'| && order'[i] == x;
          assert order[i] == x;
        }
        if x in keys - {k} {
          var i :| 0 <= i < |order| && order[i] == x;
          assert i < |order'|;
          assert order'[i] == x;
        }
      }
      SumRemove(keys, f, k);
      SumOfEnumeration(order', keys - {k}, f);
    }
  }

  /** The paths a processing gives up number the GroupMoves of the groups it handled. */
  lemma {:induction false} EvictionsLength(groups: Groups, dims: map<Path, Dims>, order: seq<Signature>, ranked: seq<seq<Path>>)
    requires Processed(groups, dims, order, ranked)
    ensures |Evictions(ranked)| == SeqSum(order, MovesOf(groups, dims))
    decreases |order|
  {
    if order != [] {
      var n := |order| - 1;
      ProcessedPrefix(groups, dims, order, ranked, n);
      EvictionsLength(groups, dims, order[..n], ranked[..n]);
      RankedMoves(groups[order[n]], dims, ranked[n]);
    }
  }

  /** Whatever order the groups are handled in, handling all of them gives up
      ExpectedMoves paths. */
  lemma CompleteProcessingMoves(groups: Groups, dims: map<Path, Dims>, order: seq<Signature>, ranked: seq<seq<Path>>)
    requires Processed(groups, dims, order, ranked)
    requires forall s | s in groups :: s in order
    ensures |Evictions(ranked)| == ExpectedMoves(groups, dims)
  {
    EvictionsLength(groups, dims, order, ranked);
    SumOfEnumeration(order, groups.Keys, MovesOf(groups, dims));
  }

  /** A path given up by a processing comes from one of the handled groups, after its keeper. */
  lemma {:induction false} EvictionsMembers(ranked: seq<seq<Path>>, p: Path)
    requires p in Evictions(ranked)
    ensures exists i | 0 <= i < |ranked| :: p in Tail(ranked[i])
    decreases |ranked|
  {
    var n := |ranked| - 1;
    if p !in Tail(ranked[n]) {
      EvictionsMembers(ranked[..n], p);
      var i :| 0 <= i < n && p in Tail(ranked[..n][i]);
      assert ranked[..n][i] == ranked[i];
    }
  }

  /** A handled group holds only paths of its group, each once. */
  lemma RankedWithin(groups: Groups, dims: map<Path, Dims>, order: seq<Signature>, ranked: seq<seq<Path>>, i: nat)
    requires GroupsWellFormed(groups)
    requires Processed(groups, dims, order, ranked)
    requires i < |ranked|
    ensures forall p | p in ranked[i] :: p in groups[order[i]]
    ensures NoDuplicates(ranked[i])
  {
    RankedMoves(groups[order[i]], dims, ranked[i]);
    NoDuplicatesSub(ranked[i], groups[order[i]]);
    forall p | p in ranked[i] ensures p in groups[order[i]] {
      assert multiset(ranked[i])[p] > 0;
    }
  }

  /** The paths after a keeper hold neither the keeper nor a repeated path. */
  lemma TailOfDistinct(r: seq<Path>)
    requires NoDuplicates(r)
    requires r != []
    ensures r[0] !in Tail(r)
    ensures NoDuplicates(Tail(r))
  {
    assert r == [r[0]] + Tail(r);
    assert multiset(r) == multiset{r[0]} + multiset(Tail(r));
    NoDuplicatesSub(Tail(r), r);
  }

  /** Handled groups of different signatures share no path. */
  lemma HandledGroupsDisjoint(groups: Groups, dims: map<Path, Dims>, order: seq<Signature>, ranked: seq<seq<Path>>, i: nat, j: nat, p: Path)
    requires GroupsWellFormed(groups)
    requires Processed(groups, dims, order, ranked)
    requires i < |ranked| && j < |ranked| && i != j
    requires p in ranked[i]
    ensures p !in ranked[j]
  {
    RankedWithin(groups, dims, order, ranked, i);
    RankedWithin(groups, dims, order, ranked, j);
    assert order[i] != order[j];
  }

  /** A path given up while handling earlier groups is not in a later group. */
  lemma EvictedEarlier(groups: Groups, dims: map<Path, Dims>, order: seq<Signature>, ranked: seq<seq<Path>>, n: nat, p: Path)
    requires GroupsWellFormed(groups)
    requires Processed(groups, dims, order, ranked)
    requires n < |ranked|
    requires p in Evictions(ranked[..n])
    ensures p !in ranked[n]
  {
    EvictionsMembers(ranked[..n], p);
    var i :| 0 <= i < n && p in Tail(ranked[..n][i]);
    assert ranked[..n][i] == ranked[i];
    HandledGroupsDisjoint(groups, dims, order, ranked, i, n, p);
  }

  /** With well-formed groups, no path is given up twice. */
  lemma {:induction false} EvictionsDistinct(groups: Groups, dims: map<Path, Dims>, order: seq<Signature>, ranked: seq<seq<Path>>)
    requires GroupsWellFormed(groups)
    requires Processed(groups, dims, order, ranked)
    ensures NoDuplicates(Evictions(ranked))
    decreases |ranked|
  {
    if ranked != [] {
      var n := |ranked| - 1;
      var earlier, r := Evictions(ranked[..n]), ranked[n];
      ProcessedPrefix(groups, dims, order, ranked, n);
      EvictionsDistinct(groups, dims, order[..n], ranked[..n]);
      if r != [] {
        RankedWithin(groups, dims, order, ranked, n);
        TailOfDistinct(r);
        forall p | p in earlier ensures p !in Tail(r) {
          EvictedEarlier(groups, dims, order, ranked, n, p);
        }
        NoDuplicatesAppend(earlier, Tail(r));
      }
    }
  }

  /** With well-formed groups, the keeper of a handled group is never given up. */
  lemma {:induction false} KeeperNeverEvicted(groups: Groups, dims: map<Path, Dims>, order: seq<Signature>, ranked: seq<seq<Path>>, j: nat)
    requires GroupsWellFormed(groups)
    requires Processed(groups, dims, order, ranked)
    requires j < |ranked| && ranked[j] != []
    ensures ranked[j][0] !in Evictions(ranked)
    decreases |ranked|
  {
    var n := |ranked| - 1;
    var keeper := ranked[j][0];
    assert Evictions(ranked) == Evictions(ranked[..n]) + Tail(ranked[n]);
    if j < n {
      ProcessedPrefix(groups, dims, order, ranked, n);
      assert ranked[..n][j] == ranked[j];
      KeeperNeverEvicted(groups, dims, order[..n], ranked[..n], j);
      HandledGroupsDisjoint(groups, dims, order, ranked, j, n, keeper);
    } else {
      RankedWithin(groups, dims, order, ranked, n);
      TailOfDistinct(ranked[n]);
      if keeper in Evictions(ranked[..n]) {
        EvictedEarlier(groups, dims, order, ranked, n, keeper);
      }
    }
  }

  /** With well-formed groups, every keeper that existed before the moves still
      exists after them. This is about the path only: when a move's base name and
      all its probes are taken in the output directory, the move lands on that
      taken path (DestinationFreshUnlessExhausted), and when the output directory
      lies inside the scanned tree that path can be a keeper, whose file is then replaced. */
  lemma KeepersStay(groups: Groups, dims: map<Path, Dims>, order: seq<Signature>, ranked: seq<seq<Path>>,
                    entries: set<Path>, outputDir: Path, refusals: Refusals, j: nat)
    requires GroupsWellFormed(groups)
    requires Processed(groups, dims, order, ranked)
    requires j < |ranked| && ranked[j] != [] && ranked[j][0] in entries
    ensures ranked[j][0] in MoveAll(Evictions(ranked), entries, outputDir, refusals).entries
  {
    KeeperNeverEvicted(groups, dims, order, ranked, j);
    MoveAllKeepsOthers(Evictions(ranked), entries, outputDir, refusals, ranked[j][0]);
  }
}

=== FILE: image.dfy ===
/** The image helpers of the scanner: classification of a path as an image by
    its extension, ranking of a duplicate group by pixel area, and conversion
    of a decoded picture to an 8-bit grayscale buffer. Decoding itself is not
    modelled: the dimensions a file reports are a partial map from path to
    width and height, and a decoded picture is a colour function over a
    rectangle. */
module Image {
  import opened Collections
  import opened Paths

  // ---------------------------------------------------------------------------
  // Classification by extension
  // ---------------------------------------------------------------------------

  /** The extensions accepted as images, dot included, exactly as spelled (case-sensitive). */
  const SupportedExtensions: set<string> := {".jpg", ".jpeg", ".png", ".bmp", ".gif", ".tiff", ".webp"}

  /** Whether the path names a supported image: its extension is in the table. */
  function IsImageFile(p: Path): bool {
    Ext(p) in SupportedExtensions
  }

  predicate EndsWith(p: Path, suffix: string) {
    |suffix| <= |p| && p[|p| - |suffix|..] == suffix
  }

  /** Each supported extension is a single dot followed by neither dots nor separators. */
  lemma SupportedExtensionsAreDotted(e: string)
    requires e in SupportedExtensions
    ensures e != [] && e[0] == '.'
    ensures forall k | 1 <= k < |e| :: e[k] != '.' && e[k] != '/'
  {
  }

  /** A path is an image file exactly when it ends with one of the seven extensions. */
  lemma IsImageFileIffSuffix(p: Path)
    ensures IsImageFile(p) <==> exists e | e in SupportedExtensions :: EndsWith(p, e)
  {
    ExtIsSuffix(p);
    if IsImageFile(p) {
      assert EndsWith(p, Ext(p));
    }
    if e :| e in SupportedExtensions && EndsWith(p, e) {
      SupportedExtensionsAreDotted(e);
      var x := p[..|p| - |e|];
      assert p == x + e;
      ExtOfDottedSuffix(x, e);
    }
  }

  /** The comparison is case-sensitive: an upper-case extension is not an image. */
  lemma UpperCaseExtensionIsNotImage()
    ensures !IsImageFile("holiday/IMG_0001.JPG")
  {
    ExtOfDottedSuffix("holiday/IMG_0001", ".JPG");
    assert "holiday/IMG_0001" + ".JPG" == "holiday/IMG_0001.JPG";
  }

  /** The same name with the extension in lower case is an image. */
  lemma LowerCaseExtensionIsImage()
    ensures IsImageFile("holiday/IMG_0001.jpg")
  {
    ExtOfDottedSuffix("holiday/IMG_0001", ".jpg");
    assert "holiday/IMG_0001" + ".jpg" == "holiday/IMG_0001.jpg";
  }

  /** A path without an extension is not an image. */
  lemma ExtensionlessIsNotImage(p: Path)
    ensures Ext(p) == "" ==> !IsImageFile(p)
  {
  }

  /** A path whose final element has no '.' is not an image, whatever its directories are called. */
  lemma NameWithoutExtensionIsNotImage(p: Path)
    requires '.' !in Base(p)
    ensures !IsImageFile(p)
  {
    ExtOfBase(p);
    NoDotNoExt(Base(p));
    ExtensionlessIsNotImage(p);
  }

  /** For instance, "README" below a directory named like an image. */
  lemma NameWithoutExtensionExample()
    ensures !IsImageFile(Join("album.jpg", "README"))
  {
    JoinSplits("album.jpg", "README");
    NameWithoutExtensionIsNotImage(Join("album.jpg", "README"));
  }

  // ---------------------------------------------------------------------------
  // Ranking by resolution
  // ---------------------------------------------------------------------------

  /** Width and height as reported by the image header. */
  datatype Dims = Dims(width: nat, height: nat)

  function Area(d: Dims): nat {
    d.width * d.height
  }

  /** The paths whose dimensions can be read, in input order, with repetitions kept. */
  function Readable(paths: seq<Path>, dims: map<Path, Dims>): (r: seq<Path>)
    ensures |r| <= |paths|
    ensures multiset(r) <= multiset(paths)
    ensures forall p | p in paths :: multiset(r)[p] == if p in dims then multiset(paths)[p] else 0
    ensures forall p | p in r :: p in dims
  {
    var keep := p => p in dims;
    FilterSpec(paths, keep);
    Filter(paths, keep)
  }

  lemma ReadableSnoc(paths: seq<Path>, p: Path, dims: map<Path, Dims>)
    ensures p in dims ==> Readable(paths + [p], dims) == Readable(paths, dims) + [p]
    ensures p !in dims ==> Readable(paths + [p], dims) == Readable(paths, dims)
  {
    FilterSnoc(paths, p, q => q in dims);
  }

  /** Paths ordered by non-increasing area. */
  ghost predicate Descending(r: seq<Path>, dims: map<Path, Dims>)
    requires forall p | p in r :: p in dims
  {
    forall i, j | 0 <= i < j < |r| :: Area(dims[r[i]]) >= Area(dims[r[j]])
  }

  /** `r` is an acceptable result of ranking `paths`: a permutation of exactly the
      readable inputs, largest area first; equal areas may come in any order. */
  ghost predicate IsRanking(paths: seq<Path>, dims: map<Path, Dims>, r: seq<Path>) {
    && (forall p | p in r :: p in dims)
    && multiset(r) == multiset(Readable(paths, dims))
    && Descending(r, dims)
  }

  /** Orders readable files by area, largest first; files whose dimensions cannot
      be read are dropped. There is no error result: none can arise. */
  method SortByResolution(paths: seq<Path>, dims: map<Path, Dims>) returns (sorted: seq<Path>)
    ensures IsRanking(paths, dims, sorted)
  {
    var files := CollectReadable(paths, dims);
    var a := new Path[|files|](k requires 0 <= k < |files| => files[k]);
    assert a[..] == files;
    SortByArea(a, dims);
    sorted := a[..];
  }

  /** The first pass of SortByResolution: keeps, in order, each path whose
      dimensions can be read and skips the others. */
  method CollectReadable(paths: seq<Path>, dims: map<Path, Dims>) returns (files: seq<Path>)
    ensures files == Readable(paths, dims)
  {
    files := [];
    for i := 0 to |paths|
      invariant files == Readable(paths[..i], dims)
    {
      ReadableSnoc(paths[..i], paths[i], dims);
      PrefixSnoc(paths, i);
      if paths[i] in dims {
        files := files + [paths[i]];
      }
    }
    assert paths[..|paths|] == paths;
  }

  /** Sorts `a` in place by non-increasing area of each path. */
  method SortByArea(a: array<Path>, dims: map<Path, Dims>)
    requires forall k | 0 <= k < a.Length :: a[k] in dims
    modifies a
    ensures multiset(a[..]) == old(multiset(a[..]))
    ensures forall p | p in a[..] :: p in dims
    ensures Descending(a[..], dims)
  {
    for i := 0 to a.Length
      invariant multiset(a[..]) == old(multiset(a[..]))
      invariant forall k | 0 <= k < a.Length :: a[k] in dims
      invariant forall k, l | 0 <= k < l < i :: Area(dims[a[k]]) >= Area(dims[a[l]])
    {
      InsertLast(a, dims, i);
    }
  }

  /** Moves a[i] left past every smaller entry, so that a[..i+1] ends up
      ordered by non-increasing area when a[..i] was. */
  method InsertLast(a: array<Path>, dims: map<Path, Dims>, i: nat)
    requires i < a.Length
    requires forall k | 0 <= k < a.Length :: a[k] in dims
    requires forall k, l | 0 <= k < l < i :: Area(dims[a[k]]) >= Area(dims[a[l]])
    modifies a
    ensures multiset(a[..]) == old(multiset(a[..]))
    ensures forall k | 0 <= k < a.Length :: a[k] in dims
    ensures forall k, l | 0 <= k < l <= i :: Area(dims[a[k]]) >= Area(dims[a[l]])
  {
    var j := i;
    while j > 0 && Area(dims[a[j - 1]]) < Area(dims[a[j]])
      invariant 0 <= j <= i
      invariant multiset(a[..]) == old(multiset(a[..]))
      invariant forall k | 0 <= k < a.Length :: a[k] in dims
      invariant forall k, l | 0 <= k < l <= i && l != j :: Area(dims[a[k]]) >= Area(dims[a[l]])
      invariant 0 < j < i ==> Area(dims[a[j - 1]]) >= Area(dims[a[j + 1]])
    {
      ghost var s := a[..];
      SwapDown(a, j);
      SwapStep(s, dims, i, j);
      j := j - 1;
    }
  }

  /** One exchange of InsertLast: swapping a smaller a[j - 1] with a[j] moves
      the one out-of-order position from j to j - 1. */
  lemma SwapStep(s: seq<Path>, dims: map<Path, Dims>, i: nat, j: nat)
    requires 0 < j <= i < |s|
    requires forall k | 0 <= k < |s| :: s[k] in dims
    requires forall k, l | 0 <= k < l <= i && l != j :: Area(dims[s[k]]) >= Area(dims[s[l]])
    requires j < i ==> Area(dims[s[j - 1]]) >= Area(dims[s[j + 1]])
    requires Area(dims[s[j - 1]]) < Area(dims[s[j]])
    ensures var t := s[j - 1 := s[j]][j := s[j - 1]];
      && (forall k | 0 <= k < |t| :: t[k] in dims)
      && (forall k, l | 0 <= k < l <= i && l != j - 1 :: Area(dims[t[k]]) >= Area(dims[t[l]]))
      && (1 < j ==> Area(dims[t[j - 2]]) >= Area(dims[t[j]]))
  {
  }

  /** Exchanges a[j - 1] and a[j]. */
  method SwapDown(a: array<Path>, j: nat)
    requires 0 < j < a.Length
    modifies a
    ensures a[..] == old(a[..])[j - 1 := old(a[j])][j := old(a[j - 1])]
    ensures multiset(a[..]) == old(multiset(a[..]))
  {
    a[j - 1], a[j] := a[j], a[j - 1];
  }

  /** A ranking keeps exactly the readable inputs: never more entries than inputs. */
  lemma RankingLength(paths: seq<Path>, dims: map<Path, Dims>, r: seq<Path>)
    requires IsRanking(paths, dims, r)
    ensures |r| == |Readable(paths, dims)| <= |paths|
    ensures forall p | p in r :: p in paths
  {
    assert |multiset(r)| == |r|;
    assert |multiset(Readable(paths, dims))| == |Readable(paths, dims)|;
    forall p | p in r ensures p in paths {
      assert multiset(r)[p] > 0;
    }
  }

  /** The first ranked path (the keeper) has the largest area of all readable inputs. */
  lemma KeeperHasLargestArea(paths: seq<Path>, dims: map<Path, Dims>, r: seq<Path>)
    requires IsRanking(paths, dims, r)
    requires r != []
    ensures r[0] in paths && r[0] in dims
    ensures forall p | p in paths && p in dims :: Area(dims[r[0]]) >= Area(dims[p])
  {
    RankingLength(paths, dims, r);
    forall p | p in paths && p in dims ensures Area(dims[r[0]]) >= Area(dims[p]) {
      assert multiset(r)[p] == multiset(paths)[p] > 0;
      assert p in r;
      var i :| 0 <= i < |r| && r[i] == p;
      if i > 0 {
        assert Area(dims[r[0]]) >= Area(dims[r[i]]);
      }
    }
  }

  /** Whatever order equal areas come in, every ranking has a keeper of the same area. */
  lemma KeeperAreaIsDetermined(paths: seq<Path>, dims: map<Path, Dims>, r1: seq<Path>, r2: seq<Path>)
    requires IsRanking(paths, dims, r1) && IsRanking(paths, dims, r2)
    ensures |r1| == |r2|
    ensures r1 != [] ==> Area(dims[r1[0]]) == Area(dims[r2[0]])
  {
    RankingLength(paths, dims, r1);
    RankingLength(paths, dims, r2);
    if r1 != [] {
      KeeperHasLargestArea(paths, dims, r1);
      KeeperHasLargestArea(paths, dims, r2);
    }
  }

  // ---------------------------------------------------------------------------
  // Grayscale conversion
  // ---------------------------------------------------------------------------

  type Word16 = x: int | 0 <= x < 0x1_0000
  type Byte = x: int | 0 <= x < 0x100

  /** A colour as RGBA() reports it: four 16-bit channels. */
  datatype Rgba64 = Rgba64(r: Word16, g: Word16, b: Word16, a: Word16)

  /** The half-open rectangle [minX, maxX) x [minY, maxY). */
  datatype Rect = Rect(minX: int, minY: int, maxX: int, maxY: int) {
    predicate WellFormed() {
      minX <= maxX && minY <= maxY
    }

    predicate Contains(x: int, y: int) {
      minX <= x < maxX && minY <= y < maxY
    }
  }

  /** A decoded picture: its bounds and the colour at each point. */
  datatype Picture = Picture(bounds: Rect, at: (int, int) -> Rgba64)

  /** An 8-bit grayscale buffer covering `rect`, one byte per pixel. */
  class GrayImage {
    const rect: Rect
    const pix: array2<Byte>

    ghost predicate Valid()
      reads this
    {
      && rect.WellFormed()
      && pix.Length0 == rect.maxY - rect.minY
      && pix.Length1 == rect.maxX - rect.minX
    }

    /** A zeroed buffer for `r` (image.NewGray). */
    constructor (r: Rect)
      requires r.WellFormed()
      ensures Valid() && rect == r && fresh(pix)
      ensures forall x, y :: At(x, y) == 0
    {
      rect := r;
      pix := new Byte[r.maxY - r.minY, r.maxX - r.minX]((i, j) => 0);
    }

    /** The gray level at (x, y); zero outside the bounds. */
    function At(x: int, y: int): Byte
      requires Valid()
      reads this, pix
    {
      if rect.Contains(x, y) then pix[y - rect.minY, x - rect.minX] else 0
    }

    /** Writes the level at (x, y) when the point lies in the bounds; ignores it otherwise. */
    method Set(x: int, y: int, level: Byte)
      requires Valid()
      modifies pix
      ensures Valid()
      ensures forall x', y' :: At(x', y') == if x' == x && y' == y && rect.Contains(x, y) then level else old(At(x', y'))
    {
      if rect.Contains(x, y) {
        pix[y - rect.minY, x - rect.minX] := level;
      }
    }
  }

  /** The gray level the converter writes for one colour: the mean of the three
      16-bit channels, truncated to its low byte by the uint8 conversion. */
  function GrayLevel(c: Rgba64): Byte {
    ((c.r + c.g + c.b) / 3) % 256
  }

  /** A fresh grayscale buffer with the picture's bounds, every in-bounds pixel
      set to the gray level of the picture's colour there. */
  method ConvertToGrayscale(img: Picture) returns (gray: GrayImage)
    requires img.bounds.WellFormed()
    ensures fresh(gray) && fresh(gray.pix) && gray.Valid()
    ensures gray.rect == img.bounds
    ensures forall x, y | img.bounds.Contains(x, y) :: gray.At(x, y) == GrayLevel(img.at(x, y))
    ensures forall x, y | !img.bounds.Contains(x, y) :: gray.At(x, y) == 0
  {
    var bounds := img.bounds;
    gray := new GrayImage(bounds);
    for y := bounds.minY to bounds.maxY
      invariant gray.Valid() && gray.rect == bounds && fresh(gray.pix)
      invariant forall x', y' | bounds.Contains(x', y') && y' < y :: gray.At(x', y') == GrayLevel(img.at(x', y'))
      invariant forall x', y' | !bounds.Contains(x', y') :: gray.At(x', y') == 0
    {
      for x := bounds.minX to bounds.maxX
        invariant gray.Valid() && gray.rect == bounds && fresh(gray.pix)
        invariant forall x', y' | bounds.Contains(x', y') && y' < y :: gray.At(x', y') == GrayLevel(img.at(x', y'))
        invariant forall x' | bounds.minX <= x' < x :: gray.At(x', y) == GrayLevel(img.at(x', y))
        invariant forall x', y' | !bounds.Contains(x', y') :: gray.At(x', y') == 0
      {
        gray.Set(x, y, GrayLevel(img.at(x, y)));
      }
    }
  }

  /** The converter as written is not monotone: 8-bit reds 1, 2 and 3 (16-bit 257,
      514 and 771) come out as levels 85, 171 and 1, so a brighter pixel turns darker. */
  lemma GrayLevelNotMonotone()
    ensures GrayLevel(Rgba64(257, 0, 0, 0xffff)) == 85
    ensures GrayLevel(Rgba64(514, 0, 0, 0xffff)) == 171
    ensures GrayLevel(Rgba64(771, 0, 0, 0xffff)) == 1
  {
  }

  /** The evidently intended level: the 16-bit mean scaled down to 8 bits by its high byte. */
  function IntendedGrayLevel(c: Rgba64): (level: Byte)
  {
    (c.r + c.g + c.b) / 3 / 256
  }

  /** A brighter colour never gets a darker intended level. */
  lemma IntendedGrayLevelMonotone(c1: Rgba64, c2: Rgba64)
    requires c1.r <= c2.r && c1.g <= c2.g && c1.b <= c2.b
    ensures IntendedGrayLevel(c1) <= IntendedGrayLevel(c2)
  {
    var s1, s2 := c1.r + c1.g + c1.b, c2.r + c2.g + c2.b;
    assert s1 / 3 <= s2 / 3;
  }

  /** For a colour decoded from 8-bit channels R, G, B (each widened to 257 times
      itself), the intended level is their 8-bit mean or one above it. */
  lemma IntendedGrayLevelTracksMean(r8: Byte, g8: Byte, b8: Byte)
    ensures var level := IntendedGrayLevel(Rgba64(257 * r8, 257 * g8, 257 * b8, 0xffff));
            var mean := (r8 + g8 + b8) / 3;
            mean <= level <= mean + 1
  {
    var s := r8 + g8 + b8;
    var q, m := s / 3, s % 3;
    assert s == 3 * q + m;
    assert 257 * r8 + 257 * g8 + 257 * b8 == 257 * s == 3 * (257 * q) + 257 * m;
    var t := 257 * m / 3;
    assert t <= 171;
    assert (257 * s) / 3 == 257 * q + t;
    assert 257 * q + t == 256 * q + (q + t);
    assert 0 <= q + t < 512;
    assert (256 * q + (q + t)) / 256 == q + (q + t) / 256;
  }

  /** A gray colour (all three channels equal) keeps its 8-bit level under the intended formula. */
  lemma IntendedGrayLevelOfGray(v: Byte)
    ensures IntendedGrayLevel(Rgba64(257 * v, 257 * v, 257 * v, 0xffff)) == v
  {
    assert (257 * v + 257 * v + 257 * v) / 3 == 257 * v;
    assert 257 * v == 256 * v + v;
  }
}

=== FILE: os.dfy ===
/** The part of the operating system the detector touches: which paths exist,
    creating the output directory, and renaming a file. The OS's reasons for
    refusing an operation (permissions, cross-device renames, a read-only
    volume) are not modelled one by one; they are fixed sets of paths for which
    the operation fails. */
module Os {
  import opened Paths

  /** Paths for which the OS refuses the operation. */
  datatype Refusals = Refusals(mkdir: set<Path>, rename: set<Path>)

  /** MkdirAll succeeds when the directory is there already or may be created. */
  predicate MkdirSucceeds(dir: Path, entries: set<Path>, refusals: Refusals) {
    dir in entries || dir !in refusals.mkdir
  }

  /** Rename succeeds when the source exists and the OS does not refuse to move it. */
  predicate RenameSucceeds(src: Path, entries: set<Path>, refusals: Refusals) {
    src in entries && src !in refusals.rename
  }

  /** The entries after renaming `src` to `dst`: the source is gone and the
      destination exists, replacing whatever was there before. */
  function AfterRename(entries: set<Path>, src: Path, dst: Path): set<Path> {
    entries - {src} + {dst}
  }

  /** After a rename the destination exists, the source is gone unless it was
      its own destination, and every other path is as before. */
  lemma AfterRenameSpec(entries: set<Path>, src: Path, dst: Path)
    ensures dst in AfterRename(entries, src, dst)
    ensures src != dst ==> src !in AfterRename(entries, src, dst)
    ensures forall p | p != src && p != dst :: p in AfterRename(entries, src, dst) <==> p in entries
  {
  }

  class FileSystem {
    /** The paths that currently exist, files and directories alike. */
    var entries: set<Path>
    const refusals: Refusals

    constructor (entries: set<Path>, refusals: Refusals)
      ensures this.entries == entries && this.refusals == refusals
    {
      this.entries := entries;
      this.refusals := refusals;
    }

    /** os.Stat reduced to whether it succeeds: the path exists. */
    method Exists(p: Path) returns (found: bool)
      ensures found <==> p in entries
    {
      found := p in entries;
    }

    /** os.MkdirAll: on success the directory exists; nothing else changes. */
    method MkdirAll(dir: Path) returns (ok: bool)
      modifies this
      ensures ok == MkdirSucceeds(dir, old(entries), refusals)
      ensures entries == if ok then old(entries) + {dir} else old(entries)
    {
      ok := MkdirSucceeds(dir, entries, refusals);
      if ok {
        entries := entries + {dir};
      }
    }

    /** os.Rename: on success the source is moved to the destination; on failure nothing changes. */
    method Rename(src: Path, dst: Path) returns (ok: bool)
      modifies this
      ensures ok == RenameSucceeds(src, old(entries), refusals)
      ensures entries == if ok then AfterRename(old(entries), src, dst) else old(entries)
    {
      ok := RenameSucceeds(src, entries, refusals);
      if ok {
        entries := AfterRename(entries, src, dst);
      }
    }
  }
}

=== FILE: paths.dfy ===
/** Slash-separated path strings and the helpers of Go's path/filepath package
    that the detector relies on: Base, Dir, Join and Ext, plus the decimal
    rendering of `%d`. Paths are taken as already clean; filepath.Clean is not
    applied. */
module Paths {

  type Path = string

  /** Index of the last '/' in `p`, or -1 when there is none. */
  function LastSep(p: Path): (k: int)
    ensures -1 <= k < |p|
    decreases |p|
  {
    if |p| == 0 then -1
    else if p[|p| - 1] == '/' then |p| - 1
    else LastSep(p[..|p| - 1])
  }

  /** LastSep finds the last separator: there is a '/' at the index and none after it. */
  lemma {:induction false} LastSepSpec(p: Path)
    ensures LastSep(p) >= 0 ==> p[LastSep(p)] == '/'
    ensures forall j | LastSep(p) < j < |p| :: p[j] != '/'
    decreases |p|
  {
    if |p| > 0 && p[|p| - 1] != '/' {
      LastSepSpec(p[..|p| - 1]);
    }
  }

  /** The final element of `p`: everything after its last separator. */
  function Base(p: Path): Path {
    p[LastSep(p) + 1..]
  }

  /** Everything before the last separator of `p`; "." when there is none. */
  function Dir(p: Path): Path {
    if LastSep(p) < 0 then "." else p[..LastSep(p)]
  }

  /** `name` placed inside directory `dir`. */
  function Join(dir: Path, name: Path): Path {
    dir + "/" + name
  }

  /** The extension of `p` as filepath.Ext returns it: the suffix of the final
      element starting at its last '.', or "" when the final element has no '.'. */
  function Ext(p: Path): (e: Path)
    ensures |e| <= |p|
    decreases |p|
  {
    if |p| == 0 || p[|p| - 1] == '/' then []
    else if p[|p| - 1] == '.' then "."
    else
      var e := Ext(p[..|p| - 1]);
      if e == [] then [] else e + [p[|p| - 1]]
  }

  /** The extension is a suffix of the path. */
  lemma {:induction false} ExtIsSuffix(p: Path)
    ensures Ext(p) == p[|p| - |Ext(p)|..]
    decreases |p|
  {
    if |p| > 0 && p[|p| - 1] != '/' && p[|p| - 1] != '.' {
      var p' := p[..|p| - 1];
      ExtIsSuffix(p');
      if Ext(p') != [] {
        assert p == p' + [p[|p| - 1]];
      }
    }
  }

  /** A non-empty extension is a '.' followed by neither '.' nor '/'. */
  lemma {:induction false} ExtSpec(p: Path)
    ensures Ext(p) != [] ==> Ext(p)[0] == '.' && forall k | 1 <= k < |Ext(p)| :: Ext(p)[k] != '.' && Ext(p)[k] != '/'
    decreases |p|
  {
    if |p| > 0 && p[|p| - 1] != '/' && p[|p| - 1] != '.' {
      var c := p[|p| - 1];
      var e' := Ext(p[..|p| - 1]);
      ExtSpec(p[..|p| - 1]);
      if e' != [] {
        var e := e' + [c];
        assert Ext(p) == e;
        assert forall k | 1 <= k < |e'| :: e[k] == e'[k];
      }
    }
  }

  /** A separator-free name without extension has no '.' at all. */
  lemma {:induction false} NoExtNoDot(p: Path)
    requires '/' !in p
    ensures Ext(p) == [] ==> '.' !in p
    decreases |p|
  {
    if |p| > 0 && p[|p| - 1] != '.' {
      var p' := p[..|p| - 1];
      assert p == p' + [p[|p| - 1]];
      assert '/' !in p';
      NoExtNoDot(p');
    }
  }

  /** The final element of a path without its extension. */
  function Stem(name: Path): Path {
    name[..|name| - |Ext(name)|]
  }

  /** `n` written in decimal, as fmt's `%d` writes a non-negative int. */
  function Decimal(n: nat): (s: string)
    ensures |s| > 0
  {
    var digit := ["0123456789"[n % 10]];
    if n < 10 then digit else Decimal(n / 10) + digit
  }

  /** A prefix of a separator-free string is separator-free. */
  lemma NoSepPrefix(s: string, n: nat)
    requires '/' !in s && n <= |s|
    ensures '/' !in s[..n]
  {
    forall k | 0 <= k < n ensures s[..n][k] != '/' { assert s[..n][k] == s[k]; }
  }

  /** A suffix of a separator-free string is separator-free. */
  lemma NoSepSuffix(s: string, n: nat)
    requires '/' !in s && n <= |s|
    ensures '/' !in s[n..]
  {
    forall k | 0 <= k < |s| - n ensures s[n..][k] != '/' { assert s[n..][k] == s[n + k]; }
  }

  /** Concatenating separator-free strings gives a separator-free string. */
  lemma NoSepConcat(a: string, b: string)
    requires '/' !in a && '/' !in b
    ensures '/' !in a + b
  {
    forall k | 0 <= k < |a + b| ensures (a + b)[k] != '/' {
      if k < |a| { assert (a + b)[k] == a[k]; } else { assert (a + b)[k] == b[k - |a|]; }
    }
  }

  /** A decimal rendering consists of digits only. */
  lemma {:induction false} DecimalDigits(n: nat)
    ensures forall k | 0 <= k < |Decimal(n)| :: '0' <= Decimal(n)[k] <= '9'
  {
    if n >= 10 {
      DecimalDigits(n / 10);
    }
  }

  /** The stem and the extension of a separator-free name are separator-free. */
  lemma StemExtNoSep(name: Path)
    requires '/' !in name
    ensures '/' !in Stem(name) && '/' !in Ext(name)
  {
    ExtIsSuffix(name);
    NoSepPrefix(name, |name| - |Ext(name)|);
    NoSepSuffix(name, |name| - |Ext(name)|);
  }

  /** The '_' that joins a stem to its number is not a separator. */
  lemma UnderscoreNoSep()
    ensures '/' !in "_"
  {
    assert "_"[0] == '_';
  }

  /** A decimal rendering holds no separator. */
  lemma DecimalNoSep(n: nat)
    ensures '/' !in Decimal(n)
  {
    DecimalDigits(n);
    forall k | 0 <= k < |Decimal(n)| ensures Decimal(n)[k] != '/' { }
  }

  /** Joining a directory with a separator-free name splits back into the two. */
  lemma JoinSplits(dir: Path, name: Path)
    requires '/' !in name
    ensures LastSep(Join(dir, name)) == |dir|
    ensures Base(Join(dir, name)) == name
    ensures Dir(Join(dir, name)) == dir
  {
    LastSepSpec(Join(dir, name));
    assert Join(dir, name)[|dir|] == '/';
  }

  /** The final element holds no separator, and `p` is its directory part followed by it. */
  lemma BaseSplit(p: Path)
    ensures '/' !in Base(p)
    ensures LastSep(p) >= 0 ==> p == Dir(p) + "/" + Base(p)
    ensures LastSep(p) < 0 ==> p == Base(p)
  {
    LastSepSpec(p);
    var k := LastSep(p);
    forall j | 0 <= j < |Base(p)| ensures Base(p)[j] != '/' {
      assert Base(p)[j] == p[k + 1 + j];
    }
    if k >= 0 {
      assert p == p[..k] + [p[k]] + p[k + 1..];
    }
  }

  /** A suffix of the form ".xyz" (no further '.' or '/') is the extension of anything it ends. */
  lemma {:induction false} ExtOfDottedSuffix(x: Path, e: Path)
    requires e != [] && e[0] == '.'
    requires forall k | 1 <= k < |e| :: e[k] != '.' && e[k] != '/'
    ensures Ext(x + e) == e
    decreases |e|
  {
    var p := x + e;
    var c := p[|p| - 1];
    assert c == e[|e| - 1];
    if |e| == 1 {
      assert c == '.';
    } else {
      var e' := e[..|e| - 1];
      assert p[..|p| - 1] == x + e';
      ExtOfDottedSuffix(x, e');
      assert c != '/' && c != '.';
      assert Ext(p) == Ext(p[..|p| - 1]) + [c];
      assert e == e' + [c];
    }
  }

  /** How the extension changes when one character is appended. */
  lemma ExtSnoc(p: Path, c: char)
    ensures Ext(p + [c]) == if c == '/' then [] else if c == '.' then "." else if Ext(p) == [] then [] else Ext(p) + [c]
  {
    assert (p + [c])[..|p + [c]| - 1] == p;
  }

  /** The extension depends only on the final element: text up to a separator does not matter. */
  lemma {:induction false} ExtOfFinalElement(x: Path, name: Path)
    requires x == [] || x[|x| - 1] == '/'
    requires '/' !in name
    ensures Ext(x + name) == Ext(name)
    decreases |name|
  {
    if name == [] {
      assert x + name == x;
    } else {
      var c := name[|name| - 1];
      var name' := name[..|name| - 1];
      assert name == name' + [c];
      assert x + name == (x + name') + [c];
      assert '/' !in name';
      ExtOfFinalElement(x, name');
      ExtSnoc(x + name', c);
      ExtSnoc(name', c);
    }
  }

  /** A path without any '.' has no extension. */
  lemma NoDotNoExt(p: Path)
    requires '.' !in p
    ensures Ext(p) == ""
  {
    ExtSpec(p);
  }

  /** The extension of a path is the extension of its final element. */
  lemma ExtOfBase(p: Path)
    ensures Ext(p) == Ext(Base(p))
  {
    BaseSplit(p);
    if LastSep(p) >= 0 {
      assert p == (Dir(p) + "/") + Base(p);
      ExtOfFinalElement(Dir(p) + "/", Base(p));
    }
  }
}

=== FILE: relocation.dfy ===
/** Relocation of non-keeper duplicates into the output directory: the
    collision-avoiding choice of a destination name (handleDuplicateFilename)
    and the effect of a sequence of moves on the filesystem, stopping at the
    first failure. */
module Relocation {
  import opened Collections
  import opened Paths
  import opened Os

  /** Probing tries the suffixes 1 through ProbeLimit - 1. */
  const ProbeLimit: nat := 1000

  /** The i-th alternative to a taken path: `dir/stem_i.ext`, in the same
      directory and with the same extension. */
  function Probe(path: Path, i: nat): Path {
    Join(Dir(path), ProbeName(path, i))
  }

  /** The final element of the i-th probe: `stem_i.ext`. */
  function ProbeName(path: Path, i: nat): Path {
    var base := Base(path);
    Stem(base) + "_" + Decimal(i) + Ext(base)
  }

  /** The first free probe from `i` on, or `path` itself when every remaining probe is taken. */
  function ResolveFrom(path: Path, entries: set<Path>, i: nat): Path
    requires 1 <= i <= ProbeLimit
    decreases ProbeLimit - i
  {
    if i == ProbeLimit then path
    else if Probe(path, i) !in entries then Probe(path, i)
    else ResolveFrom(path, entries, i + 1)
  }

  /** The destination actually used for `path`: the path itself when it is free,
      else the first free probe, else (all probes taken) the path itself again. */
  function Resolve(path: Path, entries: set<Path>): Path {
    if path in entries then ResolveFrom(path, entries, 1) else path
  }

  /** Some probe from `i` on is free. */
  ghost predicate FreeProbeFrom(path: Path, entries: set<Path>, i: nat) {
    exists j | i <= j < ProbeLimit :: Probe(path, j) !in entries
  }

  lemma {:induction false} ResolveFromSpec(path: Path, entries: set<Path>, i: nat)
    requires 1 <= i <= ProbeLimit
    ensures FreeProbeFrom(path, entries, i) ==>
      exists j | i <= j < ProbeLimit ::
        && ResolveFrom(path, entries, i) == Probe(path, j)
        && Probe(path, j) !in entries
        && forall k | i <= k < j :: Probe(path, k) in entries
    ensures !FreeProbeFrom(path, entries, i) ==> ResolveFrom(path, entries, i) == path
    decreases ProbeLimit - i
  {
    if i < ProbeLimit {
      var probe := Probe(path, i);
      if probe !in entries {
        assert ResolveFrom(path, entries, i) == probe;
        assert FreeProbeFrom(path, entries, i);
      } else {
        assert ResolveFrom(path, entries, i) == ResolveFrom(path, entries, i + 1);
        ResolveFromSpec(path, entries, i + 1);
        if FreeProbeFrom(path, entries, i) {
          var j :| i <= j < ProbeLimit && Probe(path, j) !in entries;
          assert FreeProbeFrom(path, entries, i + 1);
          var j' :| i + 1 <= j' < ProbeLimit
            && ResolveFrom(path, entries, i + 1) == Probe(path, j')
            && Probe(path, j') !in entries
            && forall k | i + 1 <= k < j' :: Probe(path, k) in entries;
          assert forall k | i <= k < j' :: Probe(path, k) in entries;
        } else {
          assert !FreeProbeFrom(path, entries, i + 1);
        }
      }
    }
  }

  /** handleDuplicateFilename's promise: a free path is kept; a taken one is
      replaced by the smallest free probe `dir/stem_i.ext` with 1 <= i < 1000;
      when all 999 probes are taken the taken path itself comes back. */
  lemma ResolveSpec(path: Path, entries: set<Path>)
    ensures path !in entries ==> Resolve(path, entries) == path
    ensures path in entries && FreeProbeFrom(path, entries, 1) ==>
      exists i | 1 <= i < ProbeLimit ::
        && Resolve(path, entries) == Probe(path, i)
        && Probe(path, i) !in entries
        && forall k | 1 <= k < i :: Probe(path, k) in entries
    ensures path in entries && !FreeProbeFrom(path, entries, 1) ==> Resolve(path, entries) == path
  {
    ResolveFromSpec(path, entries, 1);
  }

  /** The chosen destination is free unless every probe was taken, in which case
      it is the taken path and a rename onto it replaces the existing file. */
  lemma ResolveIsFreeUnlessExhausted(path: Path, entries: set<Path>)
    ensures Resolve(path, entries) !in entries <==> !(path in entries && !FreeProbeFrom(path, entries, 1))
  {
    ResolveSpec(path, entries);
  }

  /** A probe's final element holds no separator. */
  lemma ProbeNameHasNoSeparator(path: Path, i: nat)
    ensures '/' !in ProbeName(path, i)
  {
    var base := Base(path);
    var stem, digits, ext := Stem(base), Decimal(i), Ext(base);
    BaseSplit(path);
    StemExtNoSep(base);
    DecimalNoSep(i);
    UnderscoreNoSep();
    NoSepConcat(stem, "_");
    NoSepConcat(stem + "_", digits);
    NoSepConcat(stem + "_" + digits, ext);
  }

  /** A probe's final element has the extension of the original final element. */
  lemma ProbeNameExt(path: Path, i: nat)
    ensures Ext(ProbeName(path, i)) == Ext(Base(path))
  {
    var base := Base(path);
    var ext := Ext(base);
    var digits := Decimal(i);
    var head := Stem(base) + "_" + digits;
    var name := ProbeName(path, i);
    assert name == head + ext;
    if ext == [] {
      BaseSplit(path);
      NoExtNoDot(base);
      DecimalDigits(i);
      assert Stem(base) == base;
      forall k | 0 <= k < |name| ensures name[k] != '.' {
        if k < |base| { assert name[k] == base[k]; }
        else if k == |base| { assert name[k] == '_'; }
        else { assert name[k] == digits[k - |base| - 1]; }
      }
      NoDotNoExt(name);
    } else {
      ExtSpec(base);
      ExtOfDottedSuffix(head, ext);
    }
  }

  /** A probe stays in the directory of the path, keeps its extension, and its
      final element is the stem, '_', the number and the extension. */
  lemma ProbeShape(path: Path, i: nat)
    ensures Base(Probe(path, i)) == Stem(Base(path)) + "_" + Decimal(i) + Ext(Base(path))
    ensures Dir(Probe(path, i)) == Dir(path)
    ensures Ext(Probe(path, i)) == Ext(path)
  {
    var name := ProbeName(path, i);
    ProbeNameHasNoSeparator(path, i);
    ProbeNameExt(path, i);
    JoinSplits(Dir(path), name);
    assert Probe(path, i) == (Dir(path) + "/") + name;
    ExtOfFinalElement(Dir(path) + "/", name);
    ExtOfBase(path);
  }

  /** Models handleDuplicateFilename: probes `dir/stem_1.ext` up to
      `dir/stem_999.ext` and returns the first that does not exist. */
  method HandleDuplicateFilename(fs: FileSystem, path: Path) returns (result: Path)
    ensures result == Resolve(path, fs.entries)
    ensures path !in fs.entries ==> result == path
    ensures path in fs.entries && FreeProbeFrom(path, fs.entries, 1) ==>
      exists i | 1 <= i < ProbeLimit ::
        && result == Probe(path, i)
        && result !in fs.entries
        && forall k | 1 <= k < i :: Probe(path, k) in fs.entries
    ensures path in fs.entries && !FreeProbeFrom(path, fs.entries, 1) ==> result == path
  {
    ResolveSpec(path, fs.entries);
    var exists_ := fs.Exists(path);
    if exists_ {
      var dir := Dir(path);
      var base := Base(path);
      var ext := Ext(base);
      var nameWithoutExt := base[..|base| - |ext|];
      for i := 1 to ProbeLimit
        invariant ResolveFrom(path, fs.entries, i) == Resolve(path, fs.entries)
      {
        var newPath := Join(dir, nameWithoutExt + "_" + Decimal(i) + ext);
        var taken := fs.Exists(newPath);
        if !taken {
          return newPath;
        }
      }
    }
    return path;
  }

  // ---------------------------------------------------------------------------
  // The effect of a run of moves
  // ---------------------------------------------------------------------------

  datatype RelocationError = MkdirFailed(dir: Path) | RenameFailed(src: Path)

  /** One move: either the source went to `dest`, or an error stopped it. */
  datatype Step = Moved(entries: set<Path>, dest: Path) | Failed(entries: set<Path>, error: RelocationError)

  /** Moving one non-keeper: its base name in the output directory, the output
      directory created, the name made unique, then the rename. */
  function MoveOne(src: Path, entries: set<Path>, outputDir: Path, refusals: Refusals): Step {
    var destPath := Join(outputDir, Base(src));
    if !MkdirSucceeds(outputDir, entries, refusals) then Failed(entries, MkdirFailed(outputDir))
    else
      var ready := entries + {outputDir};
      var dest := Resolve(destPath, ready);
      if !RenameSucceeds(src, ready, refusals) then Failed(ready, RenameFailed(src))
      else Moved(AfterRename(ready, src, dest), dest)
  }

  /** The entries after a run of moves, how many succeeded, and the error that stopped the run, if any. */
  datatype Outcome = Outcome(entries: set<Path>, moved: nat, err: Option<RelocationError>)

  /** A run of moves continued by one more source: nothing happens after a
      failure; otherwise the source is moved and counted, or its failure ends the run. */
  function Extend(o: Outcome, src: Path, outputDir: Path, refusals: Refusals): (next: Outcome)
    ensures o.err.Some? ==> next == o
    ensures o.err.None? ==> next.moved == o.moved + (if next.err.None? then 1 else 0)
  {
    if o.err.Some? then o
    else match MoveOne(src, o.entries, outputDir, refusals)
      case Failed(after, error) => Outcome(after, o.moved, Some(error))
      case Moved(after, _) => Outcome(after, o.moved + 1, None)
  }

  /** Moves each source in turn and stops at the first failure. */
  function MoveAll(srcs: seq<Path>, entries: set<Path>, outputDir: Path, refusals: Refusals): (o: Outcome)
    ensures o.moved <= |srcs|
    ensures o.err.None? <==> o.moved == |srcs|
    decreases |srcs|
  {
    if srcs == [] then Outcome(entries, 0, None)
    else Extend(MoveAll(srcs[..|srcs| - 1], entries, outputDir, refusals), srcs[|srcs| - 1], outputDir, refusals)
  }

  /** A run over one more source is the shorter run extended by that source. */
  lemma MoveAllSnoc(a: seq<Path>, src: Path, entries: set<Path>, outputDir: Path, refusals: Refusals)
    ensures MoveAll(a + [src], entries, outputDir, refusals) == Extend(MoveAll(a, entries, outputDir, refusals), src, outputDir, refusals)
  {
    assert (a + [src])[..|a|] == a;
  }

  /** A run that has failed is not continued: later sources are never attempted. */
  lemma {:induction false} MoveAllStops(a: seq<Path>, b: seq<Path>, entries: set<Path>, outputDir: Path, refusals: Refusals)
    requires MoveAll(a, entries, outputDir, refusals).err.Some?
    ensures MoveAll(a + b, entries, outputDir, refusals) == MoveAll(a, entries, outputDir, refusals)
    decreases |b|
  {
    if b == [] {
      assert a + b == a;
    } else {
      var b' := b[..|b| - 1];
      MoveAllStops(a, b', entries, outputDir, refusals);
      assert (a + b)[..|a + b| - 1] == a + b';
    }
  }

  /** The runs of two batches, the second starting where the first ended, added together. */
  function Chain(first: Outcome, second: Outcome): Outcome {
    if first.err.Some? then first else Outcome(second.entries, first.moved + second.moved, second.err)
  }

  /** Extending a chained run extends its second part. */
  lemma ExtendChain(first: Outcome, second: Outcome, src: Path, outputDir: Path, refusals: Refusals)
    requires first.err.None?
    ensures Extend(Chain(first, second), src, outputDir, refusals) == Chain(first, Extend(second, src, outputDir, refusals))
  {
  }

  /** Running two batches of moves one after the other is running their concatenation. */
  lemma {:induction false} MoveAllAppend(a: seq<Path>, b: seq<Path>, entries: set<Path>, outputDir: Path, refusals: Refusals)
    ensures var first := MoveAll(a, entries, outputDir, refusals);
      MoveAll(a + b, entries, outputDir, refusals) == Chain(first, MoveAll(b, first.entries, outputDir, refusals))
    decreases |b|
  {
    var first := MoveAll(a, entries, outputDir, refusals);
    if first.err.Some? {
      MoveAllStops(a, b, entries, outputDir, refusals);
    } else if b == [] {
      assert a + b == a;
    } else {
      var b', x := b[..|b| - 1], b[|b| - 1];
      var second := MoveAll(b', first.entries, outputDir, refusals);
      MoveAllAppend(a, b', entries, outputDir, refusals);
      AppendSnoc(a, b);
      MoveAllSnoc(a + b', x, entries, outputDir, refusals);
      MoveAllSnoc(b', x, first.entries, outputDir, refusals);
      ExtendChain(first, second, x, outputDir, refusals);
      calc {
        MoveAll(a + b, entries, outputDir, refusals);
        Extend(MoveAll(a + b', entries, outputDir, refusals), x, outputDir, refusals);
        Extend(Chain(first, second), x, outputDir, refusals);
        Chain(first, Extend(second, x, outputDir, refusals));
        Chain(first, MoveAll(b, first.entries, outputDir, refusals));
      }
    }
  }

  /** One move leaves every other existing path in place, whether it succeeds or fails. */
  lemma MoveOneKeepsOthers(src: Path, entries: set<Path>, outputDir: Path, refusals: Refusals, p: Path)
    requires p in entries && p != src
    ensures p in MoveOne(src, entries, outputDir, refusals).entries
  {
    var ready := entries + {outputDir};
    if MkdirSucceeds(outputDir, entries, refusals) && RenameSucceeds(src, ready, refusals) {
      var dest := Resolve(Join(outputDir, Base(src)), ready);
      assert MoveOne(src, entries, outputDir, refusals).entries == AfterRename(ready, src, dest);
      AfterRenameSpec(ready, src, dest);
    }
  }

  /** A path that exists and is not among the sources still exists after the moves. */
  lemma {:induction false} MoveAllKeepsOthers(srcs: seq<Path>, entries: set<Path>, outputDir: Path, refusals: Refusals, p: Path)
    requires p in entries && p !in srcs
    ensures p in MoveAll(srcs, entries, outputDir, refusals).entries
    decreases |srcs|
  {
    if srcs != [] {
      var srcs', x := srcs[..|srcs| - 1], srcs[|srcs| - 1];
      assert srcs == srcs' + [x];
      MoveAllKeepsOthers(srcs', entries, outputDir, refusals, p);
      var first := MoveAll(srcs', entries, outputDir, refusals);
      if first.err.None? {
        MoveOneKeepsOthers(x, first.entries, outputDir, refusals, p);
      }
    }
  }

  /** Whatever handleDuplicateFilename picks stays in the directory of the
      path and keeps its extension. */
  lemma ResolveKeepsDirAndExt(path: Path, entries: set<Path>)
    ensures Dir(Resolve(path, entries)) == Dir(path)
    ensures Ext(Resolve(path, entries)) == Ext(path)
  {
    ResolveSpec(path, entries);
    if path in entries && FreeProbeFrom(path, entries, 1) {
      var i :| 1 <= i < ProbeLimit && Resolve(path, entries) == Probe(path, i);
      ProbeShape(path, i);
    }
  }

  /** A successful move's destination is what handleDuplicateFilename picks
      for the source's base name in the output directory, once that directory exists. */
  lemma MovedTo(src: Path, entries: set<Path>, outputDir: Path, refusals: Refusals)
    requires MoveOne(src, entries, outputDir, refusals).Moved?
    ensures MoveOne(src, entries, outputDir, refusals).dest == Resolve(Join(outputDir, Base(src)), entries + {outputDir})
  {
  }

  /** The source's base name placed in the output directory splits back into the two. */
  lemma PlacedName(src: Path, outputDir: Path)
    ensures Base(Join(outputDir, Base(src))) == Base(src)
    ensures Dir(Join(outputDir, Base(src))) == outputDir
  {
    BaseSplit(src);
    JoinSplits(outputDir, Base(src));
  }

  /** Every destination lies in the output directory. */
  lemma DestinationInOutputDir(src: Path, entries: set<Path>, outputDir: Path, refusals: Refusals)
    requires MoveOne(src, entries, outputDir, refusals).Moved?
    ensures Dir(MoveOne(src, entries, outputDir, refusals).dest) == outputDir
  {
    MovedTo(src, entries, outputDir, refusals);
    PlacedName(src, outputDir);
    ResolveKeepsDirAndExt(Join(outputDir, Base(src)), entries + {outputDir});
  }

  /** Every destination keeps the source's extension. */
  lemma DestinationKeepsExtension(src: Path, entries: set<Path>, outputDir: Path, refusals: Refusals)
    requires MoveOne(src, entries, outputDir, refusals).Moved?
    ensures Ext(MoveOne(src, entries, outputDir, refusals).dest) == Ext(src)
  {
    var destPath := Join(outputDir, Base(src));
    MovedTo(src, entries, outputDir, refusals);
    PlacedName(src, outputDir);
    ResolveKeepsDirAndExt(destPath, entries + {outputDir});
    ExtOfBase(src);
    ExtOfBase(destPath);
  }

  /** The destination is the source's own base name in the output directory
      whenever that path is free. */
  lemma DestinationKeepsBaseWhenFree(src: Path, entries: set<Path>, outputDir: Path, refusals: Refusals)
    requires MoveOne(src, entries, outputDir, refusals).Moved?
    ensures var dest := MoveOne(src, entries, outputDir, refusals).dest;
      Join(outputDir, Base(src)) !in entries + {outputDir} ==> dest == Join(outputDir, Base(src)) && Base(dest) == Base(src)
  {
    MovedTo(src, entries, outputDir, refusals);
    PlacedName(src, outputDir);
    ResolveSpec(Join(outputDir, Base(src)), entries + {outputDir});
  }

  /** A successful move lands on a path that did not exist, except when the
      source's base name and all 999 probes of it are taken in the output
      directory: then it lands on that taken path and replaces what was there,
      which may be a keeper when the output directory lies inside the scanned tree. */
  lemma DestinationFreshUnlessExhausted(src: Path, entries: set<Path>, outputDir: Path, refusals: Refusals)
    requires MoveOne(src, entries, outputDir, refusals).Moved?
    ensures var destPath := Join(outputDir, Base(src));
      var ready := entries + {outputDir};
      MoveOne(src, entries, outputDir, refusals).dest !in ready <==> !(destPath in ready && !FreeProbeFrom(destPath, ready, 1))
  {
    MovedTo(src, entries, outputDir, refusals);
    ResolveIsFreeUnlessExhausted(Join(outputDir, Base(src)), entries + {outputDir});
  }

  // ---------------------------------------------------------------------------
  // Which paths a duplicate group gives up
  // ---------------------------------------------------------------------------

  /** The ranked paths after the keeper. */
  function Tail(ranked: seq<Path>): seq<Path> {
    if ranked == [] then [] else ranked[1..]
  }

  /** The sources moved for a run of ranked groups, in order: each group's paths after its keeper. */
  function Evictions(groups: seq<seq<Path>>): seq<Path> {
    if groups == [] then [] else Evictions(groups[..|groups| - 1]) + Tail(groups[|groups| - 1])
  }

  /** Handling one more group gives up its paths after the keeper, and a group
      of at most one path gives up nothing. */
  lemma EvictionsSnoc(groups: seq<seq<Path>>, r: seq<Path>)
    ensures Evictions(groups + [r]) == Evictions(groups) + Tail(r)
    ensures |r| <= 1 ==> Evictions(groups + [r]) == Evictions(groups)
  {
    assert (groups + [r])[..|groups|] == groups;
  }
}

=== FILE: scanning.dfy ===
/** The directory walk of a detection run and what it leaves behind: the
    counters of regular files and images, and the groups of image paths keyed
    by content signature. The walk is the sequence of entries WalkDir hands
    to the callback; the signature generator is a partial map from image path
    to signature, undefined where the image cannot be decoded. */
module Scanning {
  import opened Collections
  import opened Paths
  import Image

  type Signature = string

  /** A signature per image path; a path outside the domain is one whose
      signature could not be generated. */
  type Signer = map<Path, Signature>

  /** One call of the walk callback: an entry, or the error WalkDir reports for a path. */
  datatype WalkEntry = Visit(path: Path, isDir: bool) | Broken(path: Path)

  /** Signature -> image paths with that signature, in the order they were visited. */
  type Groups = map<Signature, seq<Path>>

  /** The non-directory entries of a walk, in walk order. */
  function FilePaths(walk: seq<WalkEntry>): (files: seq<Path>)
    ensures |files| <= |walk|
    decreases |walk|
  {
    if walk == [] then []
    else
      var e := walk[|walk| - 1];
      var rest := FilePaths(walk[..|walk| - 1]);
      if e.Visit? && !e.isDir then rest + [e.path] else rest
  }

  /** The files the callback recognises as images by their extension. */
  function ImagePaths(walk: seq<WalkEntry>): seq<Path> {
    Filter(FilePaths(walk), Image.IsImageFile)
  }

  /** The images whose signature could be generated. */
  function SignedPaths(walk: seq<WalkEntry>, sign: Signer): seq<Path> {
    Filter(ImagePaths(walk), p => p in sign)
  }

  /** The group of `sig`; a missing key reads as an empty group, as in a Go map. */
  function Members(groups: Groups, sig: Signature): seq<Path> {
    if sig in groups then groups[sig] else []
  }

  /** The paths among `ps` whose signature is `sig`, in order. */
  function WithSignature(ps: seq<Path>, sign: Signer, sig: Signature): seq<Path> {
    Filter(ps, p => p in sign && sign[p] == sig)
  }

  /** Appends `p` to the group of `sig`, creating the group if needed. */
  function AddPath(groups: Groups, sig: Signature, p: Path): (after: Groups)
    ensures after.Keys == groups.Keys + {sig}
    ensures Members(after, sig) == Members(groups, sig) + [p]
    ensures forall s | s != sig :: Members(after, s) == Members(groups, s)
  {
    groups[sig := Members(groups, sig) + [p]]
  }

  /** The groups after the callback has seen the images `ps` in order: each
      image with a signature is appended to its group; the others are skipped. */
  function Grouped(groups: Groups, ps: seq<Path>, sign: Signer): Groups
    decreases |ps|
  {
    if ps == [] then groups
    else
      var p := ps[|ps| - 1];
      var before := Grouped(groups, ps[..|ps| - 1], sign);
      if p in sign then AddPath(before, sign[p], p) else before
  }

  /** Grouping one more image. */
  lemma GroupedSnoc(groups: Groups, ps: seq<Path>, p: Path, sign: Signer)
    ensures p in sign ==> Grouped(groups, ps + [p], sign) == AddPath(Grouped(groups, ps, sign), sign[p], p)
    ensures p !in sign ==> Grouped(groups, ps + [p], sign) == Grouped(groups, ps, sign)
  {
    assert (ps + [p])[..|ps + [p]| - 1] == ps;
  }

  /** How the files seen grow with one more entry of the walk. */
  lemma FilePathsSnoc(walk: seq<WalkEntry>, e: WalkEntry)
    ensures FilePaths(walk + [e]) == if e.Visit? && !e.isDir then FilePaths(walk) + [e.path] else FilePaths(walk)
  {
    var w := walk + [e];
    assert w[..|w| - 1] == walk;
  }

  /** How the files and images seen grow with one more entry of the walk. */
  lemma WalkSnoc(walk: seq<WalkEntry>, e: WalkEntry)
    ensures (e.Broken? || e.isDir) ==> FilePaths(walk + [e]) == FilePaths(walk)
    ensures (e.Broken? || e.isDir) ==> ImagePaths(walk + [e]) == ImagePaths(walk)
    ensures e.Visit? && !e.isDir ==> FilePaths(walk + [e]) == FilePaths(walk) + [e.path]
    ensures e.Visit? && !e.isDir && !Image.IsImageFile(e.path) ==> ImagePaths(walk + [e]) == ImagePaths(walk)
    ensures e.Visit? && !e.isDir && Image.IsImageFile(e.path) ==> ImagePaths(walk + [e]) == ImagePaths(walk) + [e.path]
  {
    FilePathsSnoc(walk, e);
    if e.Visit? && !e.isDir {
      FilterSnoc(FilePaths(walk), e.path, Image.IsImageFile);
    }
  }

  /** Every group after the walk is the group before it followed by exactly
      the visited images of that signature, in visiting order; an image whose
      signature failed lands in no group. */
  lemma {:induction false} GroupedMembers(groups: Groups, ps: seq<Path>, sign: Signer, sig: Signature)
    ensures Members(Grouped(groups, ps, sign), sig) == Members(groups, sig) + WithSignature(ps, sign, sig)
    decreases |ps|
  {
    if ps != [] {
      var ps', p := ps[..|ps| - 1], ps[|ps| - 1];
      assert ps == ps' + [p];
      GroupedMembers(groups, ps', sign, sig);
      GroupedSnoc(groups, ps', p, sign);
      FilterSnoc(ps', p, q => q in sign && sign[q] == sig);
    }
  }

  /** An image whose signature could not be generated is counted by the walk
      but lands in no group. */
  lemma UnsignedNotGrouped(groups: Groups, ps: seq<Path>, sign: Signer, p: Path, sig: Signature)
    requires p !in sign && p !in Members(groups, sig)
    ensures p !in Members(Grouped(groups, ps, sign), sig)
  {
    GroupedMembers(groups, ps, sign, sig);
    FilterSpec(ps, q => q in sign && sign[q] == sig);
  }

  /** The signatures after the walk are the ones before plus those of the signed images. */
  lemma {:induction false} GroupedKeys(groups: Groups, ps: seq<Path>, sign: Signer)
    ensures Grouped(groups, ps, sign).Keys == groups.Keys + set p | p in ps && p in sign :: sign[p]
    decreases |ps|
  {
    if ps != [] {
      var ps', p := ps[..|ps| - 1], ps[|ps| - 1];
      assert ps == ps' + [p];
      GroupedKeys(groups, ps', sign);
      GroupedSnoc(groups, ps', p, sign);
      var keys := set q | q in ps && q in sign :: sign[q];
      var keys' := set q | q in ps' && q in sign :: sign[q];
      if p in sign {
        assert keys == keys' + {sign[p]};
      } else {
        assert keys == keys';
      }
    }
  }

  // ---------------------------------------------------------------------------
  // How many paths the groups hold
  // ---------------------------------------------------------------------------

  /** The size of each group, as a function of the signature. */
  function GroupSize(groups: Groups): Signature -> nat {
    s => |Members(groups, s)|
  }

  /** The number of paths held in all groups together. */
  ghost function TotalMembers(groups: Groups): nat {
    Sum(groups.Keys, GroupSize(groups))
  }

  /** Appending one path makes the groups hold exactly one path more. */
  lemma TotalMembersAddPath(groups: Groups, sig: Signature, p: Path)
    ensures TotalMembers(AddPath(groups, sig, p)) == TotalMembers(groups) + 1
  {
    var after := AddPath(groups, sig, p);
    var f, g := GroupSize(groups), GroupSize(after);
    SumRemove(after.Keys, g, sig);
    assert after.Keys - {sig} == groups.Keys - {sig};
    SumCongruent(groups.Keys - {sig}, g, f);
    if sig in groups {
      SumRemove(groups.Keys, f, sig);
    } else {
      assert groups.Keys - {sig} == groups.Keys;
    }
  }

  /** Grouping adds to the groups exactly one path per signed image. */
  lemma {:induction false} TotalMembersGrouped(groups: Groups, ps: seq<Path>, sign: Signer)
    ensures TotalMembers(Grouped(groups, ps, sign)) == TotalMembers(groups) + |Filter(ps, p => p in sign)|
    decreases |ps|
  {
    if ps != [] {
      var ps', p := ps[..|ps| - 1], ps[|ps| - 1];
      assert ps == ps' + [p];
      TotalMembersGrouped(groups, ps', sign);
      GroupedSnoc(groups, ps', p, sign);
      FilterSnoc(ps', p, q => q in sign);
      if p in sign {
        TotalMembersAddPath(Grouped(groups, ps', sign), sign[p], p);
      }
    }
  }

  /** After a first walk, the groups hold exactly the signed images, so no more
      paths than ImagesFound, which in turn is at most TotalFiles. */
  lemma ScanCounts(walk: seq<WalkEntry>, sign: Signer)
    ensures TotalMembers(Grouped(map[], ImagePaths(walk), sign)) == |SignedPaths(walk, sign)|
    ensures |SignedPaths(walk, sign)| <= |ImagePaths(walk)| <= |FilePaths(walk)|
  {
    TotalMembersGrouped(map[], ImagePaths(walk), sign);
  }

  // ---------------------------------------------------------------------------
  // Well-formed groups
  // ---------------------------------------------------------------------------

  /** No group repeats a path and no path is in two groups. */
  ghost predicate GroupsWellFormed(groups: Groups) {
    && (forall s | s in groups :: NoDuplicates(groups[s]))
    && (forall s, t, p | s in groups && t in groups && p in groups[s] && p in groups[t] :: s == t)
  }

  /** A walk that visits each file once, over images not already grouped, keeps the groups well formed. */
  lemma GroupedWellFormed(groups: Groups, ps: seq<Path>, sign: Signer)
    requires GroupsWellFormed(groups)
    requires NoDuplicates(ps)
    requires forall s, p | s in groups && p in groups[s] :: p !in ps
    ensures GroupsWellFormed(Grouped(groups, ps, sign))
  {
    var after := Grouped(groups, ps, sign);
    GroupedKeys(groups, ps, sign);
    forall s | s in after ensures NoDuplicates(after[s]) {
      GroupedMembers(groups, ps, sign, s);
      var added := WithSignature(ps, sign, s);
      FilterSpec(ps, q => q in sign && sign[q] == s);
      NoDuplicatesSub(added, ps);
      NoDuplicatesAppend(Members(groups, s), added);
    }
    forall s, t, p | s in after && t in after && p in after[s] && p in after[t] ensures s == t {
      GroupedMembers(groups, ps, sign, s);
      GroupedMembers(groups, ps, sign, t);
      FilterSpec(ps, q => q in sign && sign[q] == s);
      FilterSpec(ps, q => q in sign && sign[q] == t);
      if p in ps {
        assert p in WithSignature(ps, sign, s) && p in WithSignature(ps, sign, t);
      } else {
        assert p in Members(groups, s) && p in Members(groups, t);
      }
    }
  }

  /** A first walk that visits each file once yields well-formed groups. */
  lemma FirstScanWellFormed(walk: seq<WalkEntry>, sign: Signer)
    requires NoDuplicates(FilePaths(walk))
    ensures GroupsWellFormed(Grouped(map[], ImagePaths(walk), sign))
  {
    FilterSpec(FilePaths(walk), Image.IsImageFile);
    NoDuplicatesSub(ImagePaths(walk), FilePaths(walk));
    GroupedWellFormed(map[], ImagePaths(walk), sign);
  }

  // ---------------------------------------------------------------------------
  // Where the walk stops
  // ---------------------------------------------------------------------------

  /** The index of the first walk error, if any. */
  function FirstBroken(walk: seq<WalkEntry>): (b: Option<nat>)
    ensures b.Some? ==> b.value < |walk| && walk[b.value].Broken? && forall i | 0 <= i < b.value :: walk[i].Visit?
    ensures b.None? ==> forall i | 0 <= i < |walk| :: walk[i].Visit?
    decreases |walk|
  {
    if walk == [] then None
    else match FirstBroken(walk[..|walk| - 1])
      case Some(k) => Some(k)
      case None => if walk[|walk| - 1].Broken? then Some(|walk| - 1) else None
  }

  /** The walk stops at the first error. */
  lemma FirstBrokenAt(walk: seq<WalkEntry>, i: nat)
    requires i < |walk| && walk[i].Broken?
    requires forall k | 0 <= k < i :: walk[k].Visit?
    ensures FirstBroken(walk) == Some(i)
  {
  }

  /** A walk whose entries are all visits has no error. */
  lemma NoneBroken(walk: seq<WalkEntry>)
    requires forall k | 0 <= k < |walk| :: walk[k].Visit?
    ensures FirstBroken(walk) == None
  {
  }
}
